=== FILE: README.md ===
# FDF coupon extractor — Dafny model

`FDFCouponExtractor.py` goes through every `*.fdf` file in a source folder.
For each document it walks the pages and, within a page, the embedded images.
It drops images whose payload is under 20480 bytes. It also drops images whose
SHA-256 digest was already seen in the same document. The survivors are passed
through a storage optimiser. Optionally each one is written as
`coupon_<name>_p<page>_i<index>.<ext>`.

Optionally a PDF is then laid out from a document's survivors. The layout puts
1 to 5 coupons per A4 page, one per horizontal band. Each coupon is scaled to
keep its aspect ratio and centred in a padded rectangle. When merging is on and
more than one document was found, the survivors of all documents are also laid
out into one merged PDF. Source deletion is deferred to the end. One completion
message is chosen.

The project models that core as pure functions over immutable data:

- `types.dfy`: the shared records. These are the raw image the document
  library returns, the same image tagged with its `(page, index)` position, and
  the `(bytes, width, height, ext)` coupon tuple handed to the layout.
- `extraction.dfy`: a document is flattened into the stream of positioned
  images, in page order and then in-page order.
- `filter.dfy`: the size filter and the per-document duplicate remover, written
  as a fold over the stream. A reference definition, "the first large-enough
  occurrence of each fingerprint", is proved equal to it. The storage
  optimiser is also here.
- `layout.dfy`: `create_pdf` without the PDF library. It covers:
  - clamping the per-page count;
  - batching;
  - band geometry;
  - the aspect-preserving fit, in exact real arithmetic.
- `naming.dfy`: decimal rendering, `basename`, `[:-4]`, the image file name
  with a parser that proves it injective, and `.replace(".fdf", ".pdf")`.
- `pipeline.dfy`: the parts that tie it together:
  - processing one document;
  - the document loop, with the merge list and the deletion queue;
  - the merged PDF, the deferred deletions and the completion notice;
  - an `Effect` list that records every write and removal in order;
  - a `failure` that stands for an exception aborting the run.

The content digest and the image re-encoder are parameters of the model
(`Codec`). Every property holds for every choice of them. A coupon of height
zero makes the program's `w / h` raise. Here that is `Layout.Fit` returning
`None`, which aborts the run like the program's re-raised exception. A document
the library cannot open (`pages == None`) also aborts the run.

Every write carries its file name. The merged PDF is always
`merged_coupons.pdf` in the same folder as the per-document PDFs. A source
named `merged_coupons.fdf` therefore has its own PDF written under that name
first, and the merged PDF written over it later. `Naming.MergedNameClash` and
`Pipeline.RunPdfNamesDistinct` show this is the only such clash.

## Model

| member | source | states |
|---|---|---|
| Extraction.Extract | FDFCouponExtractor.py:221-230 | every streamed image names an existing `(page, index)` slot holding exactly that image, and positions strictly increase along the stream |
| Extraction.ExtractLength | FDFCouponExtractor.py:221-225 | the stream has exactly one entry per stored image of every page |
| Extraction.ExtractAt | FDFCouponExtractor.py:221-230 | image `i` of page `p` sits right after all images of the earlier pages, tagged with page `p` and index `i` and carrying exactly the library's record for it |
| Filter.Optimize | FDFCouponExtractor.py:124-136 | jpg/jpeg payloads are stored unchanged; otherwise the re-encoded payload is stored, or the original when re-encoding raises |
| Filter.LossyExtIgnoresCase | FDFCouponExtractor.py:126 | the lossy-format test ignores letter case |
| Filter.FilterImages | FDFCouponExtractor.py:232-238 | every kept image is at least 20480 bytes long and its fingerprint was newly added to the seen-set; the seen-set only grows |
| Filter.FilterKeepsDistinct | FDFCouponExtractor.py:235-238 | no two kept images share a fingerprint |
| Filter.FilterStoresOptimized | FDFCouponExtractor.py:240-250 | each kept image stores the optimiser's output for its own payload and format |
| Filter.FilterKeepsSubsequence | FDFCouponExtractor.py:225-250 | the kept images are the stream with some images left out, in stream order |
| Filter.SeenIsAcceptedFingerprints | FDFCouponExtractor.py:235-238 | the seen-set is exactly the starting set plus the fingerprints of the kept images |
| Filter.SeenIsLargeFingerprints | FDFCouponExtractor.py:232-238 | the seen-set is the starting set plus the fingerprints of every large-enough image examined, including rejected duplicates |
| Filter.FilterKeepsFirstOccurrences | FDFCouponExtractor.py:216-250 | the filter keeps exactly the first large-enough occurrence of each fingerprint not already seen, in stream order, matching an independent reference definition |
| Filter.SelectionIgnoresOptimizer | FDFCouponExtractor.py:232-240 | which images are kept does not depend on the optimiser, because dedup looks at the extracted payload |
| Filter.SizeThreshold | FDFCouponExtractor.py:232-233 | for an image with a new fingerprint the threshold is inclusive: it is kept exactly when it has at least 20480 bytes |
| Filter.RepeatRejected | FDFCouponExtractor.py:235-237 | an image whose payload equals the previous image's payload changes nothing |
| Filter.SmallThenRepeat | FDFCouponExtractor.py:232-238 | a small image, a large one and a repeat of the large one keep only the large one |
| Layout.ClampPerPage | FDFCouponExtractor.py:146 | the per-page count is forced into [1, 5]: unchanged inside, 1 below, 5 above |
| Layout.SectionHeight | FDFCouponExtractor.py:147-148 | bands have positive height, and `cpp` bands with `cpp - 1` gaps of 14 points fill the 842-point page exactly |
| Layout.BandsFillPage | FDFCouponExtractor.py:147-155 | the first band starts at the top, consecutive bands are one gap apart, and the last band ends at the page bottom |
| Layout.PaddedRect | FDFCouponExtractor.py:155-161 | a slot's padded rectangle is non-empty, spans the width between the 20-point margins, and lies strictly inside its band |
| Layout.SlotsStacked | FDFCouponExtractor.py:155-161 | the padded rectangle of an earlier slot ends strictly above that of a later one |
| Layout.Fit | FDFCouponExtractor.py:163-173 | the fit fails exactly for height zero; otherwise it lies inside the padded rectangle, keeps the pixel aspect ratio, and fills the width (centred vertically) or the height (centred horizontally) according to the aspect comparison |
| Layout.FillWidthPlacement | FDFCouponExtractor.py:166-169 | in the wide branch the scaled coupon spans the full padded width, fits the height and is centred vertically |
| Layout.FillHeightPlacement | FDFCouponExtractor.py:170-173 | in the tall branch the scaled coupon spans the full padded height, fits the width and is centred horizontally |
| Layout.Batches | FDFCouponExtractor.py:150-151 | every batch holds 1 to `cpp` coupons and all but the last hold exactly `cpp` |
| Layout.BatchesFlatten | FDFCouponExtractor.py:150-151 | reading the batches in order gives back the coupon list |
| Layout.BatchCount | FDFCouponExtractor.py:150-151 | there are no batches exactly for no coupons, and `(n - 1) * cpp < |coupons| <= n * cpp` for `n` batches |
| Layout.BatchCountIsCeiling | FDFCouponExtractor.py:150 | the number of batches (pages) is the ceiling of `|coupons| / cpp` |
| Layout.BatchIsSlice | FDFCouponExtractor.py:150-151 | batch `b` is the slice `images[b*cpp : b*cpp+cpp]`, cut at the end of the list |
| Layout.BatchElement | FDFCouponExtractor.py:150-154 | element `i` of batch `b` is coupon `b * cpp + i` |
| Layout.LastBatchSize | FDFCouponExtractor.py:150-151 | the last batch holds `|coupons| mod cpp` coupons, or `cpp` when that is zero |
| Layout.PlaceBatch | FDFCouponExtractor.py:154-175 | a page fails exactly when one of its coupons has height zero; otherwise coupon `i` is shown in slot `i`, properly placed |
| Layout.PlacePages | FDFCouponExtractor.py:150-175 | the pages fail exactly when some batch holds a zero-height coupon; otherwise there is one page per batch with one placement per coupon |
| Layout.PlacePagesSlot | FDFCouponExtractor.py:150-175 | coupon `i` of batch `b` is shown in slot `i` of page `b`, with its payload, inside the padded rectangle and keeping its aspect ratio |
| Layout.Compose | FDFCouponExtractor.py:138-177 | composing fails exactly when some coupon has height zero; no page holds more than the clamped count |
| Layout.ComposePageCount | FDFCouponExtractor.py:146-152 | there are ceiling-of-`|coupons|/cpp` pages, none for no coupons, each with 1 to `cpp` coupons, and all but the last full |
| Layout.ComposeSlot | FDFCouponExtractor.py:150-175 | slot `i` of page `p` shows coupon `p * cpp + i`, properly placed in slot `i`'s padded rectangle |
| Layout.ComposeKeepsOrder | FDFCouponExtractor.py:150-175 | reading the pages in order gives every coupon's payload exactly once, in the original order |
| Layout.PageCouponsDisjoint | FDFCouponExtractor.py:155-175 | coupons on one page never overlap and stay within the side margins and the page |
| Naming.NatToString | FDFCouponExtractor.py:244 | the rendering is a non-empty string of decimal digits with no leading zero |
| Naming.DecimalRoundTrip | FDFCouponExtractor.py:244 | reading a rendered number gives the number back |
| Naming.Basename | FDFCouponExtractor.py:244 | `os.path.basename`: the result holds no '/' and is a suffix of the path; `Naming.BasenameIsLastSegment` and `Naming.BasenameOfJoin` state that it is exactly the last segment |
| Naming.BasenameIsLastSegment | FDFCouponExtractor.py:244 | the base name is the path's last segment: it holds no '/', ends the path, and reaches back to the start of the path or to a '/' |
| Naming.BasenameOfJoin | FDFCouponExtractor.py:213 | the base name of `dir/name` is `name` when `name` has no '/' |
| Naming.Stem | FDFCouponExtractor.py:244 | `name[:-4]`: the name without its last four characters, or empty when shorter |
| Naming.ImageFileName | FDFCouponExtractor.py:244 | the name `coupon_<stem>_p<page+1>_i<index+1>.<ext>`; its contract is carried by `Naming.ImageFileNameRoundTrip` (the parts can be read back) and `Naming.ImageFileNameInjective` (distinct parts give distinct names) |
| Naming.ImageFileNameRoundTrip | FDFCouponExtractor.py:244 | when the format tag has no '.', an image file name can be parsed back into its stem, page, index and extension |
| Naming.ImageFileNameInjective | FDFCouponExtractor.py:244 | when no format tag contains a '.', equal image file names mean equal stem, page, index and extension |
| Naming.PdfFileName | FDFCouponExtractor.py:253 | `name.replace(".fdf", ".pdf")`; its contract is carried by `Naming.ReplaceFdfAt` (every ".fdf" becomes ".pdf", nothing else changes), `Naming.PdfNameOfSource` and `Naming.MergedNameClash` |
| Naming.ReplaceFdf | FDFCouponExtractor.py:253 | replacing ".fdf" by ".pdf" keeps the length |
| Naming.ReplaceFdfAt | FDFCouponExtractor.py:253 | every occurrence of ".fdf" is replaced, as Python's `str.replace` does: a character becomes the 'p' of ".pdf" exactly when a ".fdf" starts just before it, and is otherwise unchanged |
| Naming.ReplaceFdfAbsent | FDFCouponExtractor.py:253 | a name without ".fdf" is unchanged |
| Naming.ReplaceFdfTrailing | FDFCouponExtractor.py:253 | a trailing ".fdf" always becomes ".pdf" |
| Naming.PdfNameOfSource | FDFCouponExtractor.py:253 | `name.fdf` with no other ".fdf" gives the PDF name `name.pdf` |
| Pipeline.ProcessDocument | FDFCouponExtractor.py:215-258 | a document fails as unreadable exactly when it cannot be opened, and then writes nothing; the image and PDF flags match the files written; only image and per-document PDF files are written |
| Pipeline.ProcessAccepted | FDFCouponExtractor.py:243-255 | images are reported written exactly when extraction is on and something was accepted; a PDF exactly when conversion is on, something was accepted and nothing failed; failure exactly when that PDF would hold a zero-height image |
| Pipeline.ProcessAcceptedWrites | FDFCouponExtractor.py:243-255 | with extraction on, the image files come first, one per accepted image; with it off, no image file is written; apart from them exactly one file is written when the PDF was, and it is last; every PDF written is named after the document (`.fdf` replaced by `.pdf`) and holds the layout of the accepted images; the flags record exactly which kinds of file were written |
| Pipeline.ComposeIf | FDFCouponExtractor.py:252-254 | no PDF exactly when it is not wanted or the list is empty; failure exactly when it is wanted, non-empty and holds a zero-height coupon |
| Pipeline.PdfWrites | FDFCouponExtractor.py:252-255 | one per-document PDF file, under the given name, exactly when the PDF was composed, carrying the composed layout |
| Pipeline.MergedWrites | FDFCouponExtractor.py:264-267 | one merged PDF file, named `merged_coupons.pdf`, exactly when the merged PDF was composed, holding its layout |
| Pipeline.ScanDocument | FDFCouponExtractor.py:216-250 | the program's nested loop with a per-document seen-set computes exactly the filter over the document's image stream |
| Pipeline.ScanPage | FDFCouponExtractor.py:225-250 | the inner loop over one page continues the filter state reached on the earlier pages |
| Pipeline.AcceptedInDocumentOrder | FDFCouponExtractor.py:221-250 | accepted images are in document order: by page, then by position on the page |
| Pipeline.DistinctImageNames | FDFCouponExtractor.py:243-247 | when no format tag contains a '.', two accepted images of one document are never written to the same file |
| Pipeline.RunLoop | FDFCouponExtractor.py:215-261 | the run-wide flags match the files written; only image and per-document PDF files are written in the loop; a completed loop opened every document |
| Pipeline.RunLoopEffects | FDFCouponExtractor.py:215-255 | a completed loop writes exactly every document's own image files and PDF, document after document, as an independent reference definition lists them |
| Pipeline.LoopPdfNames | FDFCouponExtractor.py:252-254 | every per-document PDF written by the loop is named after one of the source files, `.fdf` replaced by `.pdf` |
| Pipeline.ProcessDocumentFails | FDFCouponExtractor.py:220-254 | a document fails exactly when it cannot be opened, or its PDF is wanted and one of its accepted images has height zero |
| Pipeline.LoopFailure | FDFCouponExtractor.py:215-261 | the loop ends in failure exactly when some document fails |
| Pipeline.LoopMerges | FDFCouponExtractor.py:257-258 | after the loop the merge list is every document's accepted images in document order, with no deduplication across documents, or empty when merging is off |
| Pipeline.LoopQueuesDeletions | FDFCouponExtractor.py:260-261 | after the loop every source is queued for deletion in order, or none when deleting is off |
| Pipeline.CompletionNotice | FDFCouponExtractor.py:283-289 | "no files" exactly when none were found, even when suppressed; otherwise nothing when suppressed, else success when an image or PDF was produced and "no processable images" when not |
| Pipeline.CompletionNoticeText | FDFCouponExtractor.py:283-289 | the message shown is "No FDF files found in source directory" when no file was found, otherwise "Extracted successfully!" or "No processable images found" according to whether anything was written |
| Pipeline.FinishCompleted | FDFCouponExtractor.py:263-289 | a run that completes had no failing document and no failing merge, writes the loop's files, then the merged PDF, then the queued removals, and shows the completion notice |
| Pipeline.FinishAborted | FDFCouponExtractor.py:277-280 | an aborted run writes nothing after the loop |
| Pipeline.FinishDefersDeletion | FDFCouponExtractor.py:269-272 | after the loop, removals come after every write, remove exactly the queued paths when the run completes and deleting is on, and nothing otherwise |
| Pipeline.RunDefersDeletion | FDFCouponExtractor.py:260-280 | every removal comes after every write; a completed run with deleting on removes exactly the sources in order; an aborted run removes nothing |
| Pipeline.FinishMerge | FDFCouponExtractor.py:263-267 | after the loop, the merged PDF is written exactly when merging is on, more than one file was found, the merge list is non-empty and nothing failed |
| Pipeline.FinishMergeLayout | FDFCouponExtractor.py:264-266 | a merged PDF is named `merged_coupons.pdf` and lays out the merge list |
| Pipeline.RunMerge | FDFCouponExtractor.py:257-267 | the merged PDF is written exactly when merging is on, more than one file was found, some image was accepted and nothing failed; it is named `merged_coupons.pdf` and lays out all documents' accepted images in document order |
| Naming.MergedNameClash | FDFCouponExtractor.py:253-265 | a base name's PDF name is `merged_coupons.pdf` exactly for the base names `merged_coupons.fdf` and `merged_coupons.pdf` |
| Pipeline.RunPdfNamesDistinct | FDFCouponExtractor.py:252-266 | unless a source is named `merged_coupons.fdf` or `merged_coupons.pdf`, no per-document PDF of a run has the merged PDF's name |
| Pipeline.FinishNotice | FDFCouponExtractor.py:277-289 | after the loop, an abort shows the critical error unless suppressed; a completed run's notice follows whether any image or PDF file was written |
| Pipeline.RunNotice | FDFCouponExtractor.py:277-289 | no files gives no effects and the "no files" notice even when suppressed; an abort shows the critical error unless suppressed and no completion notice; otherwise success exactly when an image or PDF file was written |
| Pipeline.FinishFails | FDFCouponExtractor.py:263-266 | after the loop, the run fails exactly when the loop failed or the merged PDF is due and holds a zero-height coupon |
| Pipeline.RunFails | FDFCouponExtractor.py:215-280 | the run aborts exactly when some document fails, or the merged PDF is due and some accepted image of any document has height zero |
| Pipeline.LoopStopsAtFailure | FDFCouponExtractor.py:215-220 | once a document fails, the loop is over: appending any further sources leaves its state, writes and queued removals unchanged |
| Pipeline.RunStopsAtFailure | FDFCouponExtractor.py:212-280 | once a prefix of the sources fails, the whole run writes exactly what the loop wrote up to that point, no merged PDF and no removal, and reports that failure |
| Pipeline.UnreadableSourceAborts | FDFCouponExtractor.py:220 | a source the document library cannot open aborts the whole run: the run's writes are exactly those of the sources before it, and its failure is that source's when none of those failed |
| Pipeline.Finish | FDFCouponExtractor.py:263-289 | what follows the loop; its contract is carried by `Pipeline.FinishCompleted`, `Pipeline.FinishAborted`, `Pipeline.FinishMerge`, `Pipeline.FinishMergeLayout`, `Pipeline.FinishDefersDeletion`, `Pipeline.FinishNotice` and `Pipeline.FinishFails` |
| Pipeline.Run | FDFCouponExtractor.py:212-289 | the whole run; its contract is carried by `Pipeline.RunMerge`, `Pipeline.RunDefersDeletion`, `Pipeline.RunNotice`, `Pipeline.RunFails`, `Pipeline.RunStopsAtFailure` and `Pipeline.RunPdfNamesDistinct` |
| Pipeline.SmallThenRepeatKeepsOne | FDFCouponExtractor.py:232-238 | a page holding a 512-byte image, a 25600-byte image and a repeat of the latter keeps only the middle image |
| Pipeline.SmallThenRepeatOutputs | FDFCouponExtractor.py:243-255 | that document with extraction and conversion on writes one image file and then a one-page, one-coupon PDF |
| Pipeline.SingleAcceptedOutputs | FDFCouponExtractor.py:243-255 | one accepted image of non-zero height gives its image file, then the document's one-page PDF showing it |
| Pipeline.MergeTwoDocuments | FDFCouponExtractor.py:257-266 | two documents of two coupons each, merged at three per page, give a merged PDF with pages of three and one, holding the first document's images and then the second's |
| Pipeline.TwoDocumentLoop | FDFCouponExtractor.py:215-261 | two openable documents with non-zero heights pass the loop, and the merge list is the first's images followed by the second's |

## Left out

- The Tkinter settings dialog, the JSON configuration file and its defaults are not modelled. The run takes a `Config` value.
- The PDF library is not modelled. Opening a document, listing page images and extracting an image become the `pages` field of `SourceFile`. Drawing and saving a PDF becomes a `WritePdf`/`WriteMergedPdf` effect carrying the computed layout.
- The image library is not modelled: it is the `reencode` parameter, and `None` stands for the exception that `optimize_image_storage` catches. SHA-256 is the `fingerprint` parameter.
- File system work is an ordered `Effect` list with file names only:
  - `glob` enumeration (the file list and its order are an input);
  - `os.makedirs`;
  - joining with the destination folder;
  - the actual writes and removals.
- A failing `os.remove` only shows a warning and continues. The model records each removal as done. The warning dialog is not modelled.
- Exceptions other than an unopenable document and a zero-height coupon are not modelled. Examples are I/O errors and library errors while extracting an image. The text of the critical-error dialog is reduced to the `CriticalError` notice carrying the error, and the re-raise is the `failure` field.
- `total_size` is computed but never used, so it is not modelled. The final console `print` is not modelled either.
- Layout.Fit: coordinates are exact reals, not IEEE doubles, so rounding in the program's floating-point layout is not modelled.
- Naming.Basename: splits at '/' only, as POSIX `os.path.basename` does. Windows separators are not modelled.
- Filter.IsLossyExt: lower-cases ASCII letters only. No other character lower-cases to 'j', 'p', 'e' or 'g', so the jpg/jpeg test is unaffected.

=== FILE: extraction.dfy ===
/**
 Flattening of a parsed document into the stream of positioned images the
 filter consumes: pages in page order, and within a page the images in the
 order the page lists them.
 */
module Extraction {
  import opened Types

  /** The images of page `page`, each tagged with its position in the page's
      full image list. */
  function PageImages(page: nat, imgs: seq<RawImage>): (r: seq<SourceImage>)
    ensures |r| == |imgs|
    ensures forall i :: 0 <= i < |r| ==>
              r[i].page == page && r[i].index == i && Raw(r[i]) == imgs[i]
  {
    seq(|imgs|, i requires 0 <= i < |imgs| =>
      SourceImage(imgs[i].bytes, imgs[i].width, imgs[i].height, imgs[i].ext, page, i))
  }

  /** The record the document library produced for a positioned image. */
  function Raw(s: SourceImage): RawImage {
    RawImage(s.bytes, s.width, s.height, s.ext)
  }

  /** `(page, index)` positions strictly increase along the stream. */
  predicate PositionBefore(a: SourceImage, b: SourceImage) {
    a.page < b.page || (a.page == b.page && a.index < b.index)
  }

  /** Every image of every page, in page order and then in in-page order. */
  function Extract(pages: seq<seq<RawImage>>): (r: seq<SourceImage>)
    ensures forall k :: 0 <= k < |r| ==> Locates(pages, r[k])
    ensures forall a, b :: 0 <= a < b < |r| ==> PositionBefore(r[a], r[b])
    decreases |pages|
  {
    if |pages| == 0 then []
    else
      var init := pages[..|pages| - 1];
      var prefix := Extract(init);
      var last := PageImages(|pages| - 1, pages[|pages| - 1]);
      assert forall k :: 0 <= k < |prefix| ==> Locates(pages, prefix[k]) by {
        forall k | 0 <= k < |prefix| ensures Locates(pages, prefix[k]) {
          assert Locates(init, prefix[k]);
          assert pages[prefix[k].page] == init[prefix[k].page];
        }
      }
      prefix + last
  }

  /** `s` names an existing `(page, index)` slot of the document and carries
      exactly the image stored there. */
  predicate Locates(pages: seq<seq<RawImage>>, s: SourceImage) {
    s.page < |pages| && s.index < |pages[s.page]| && Raw(s) == pages[s.page][s.index]
  }

  /** Number of images on the first `p` pages. */
  function ImagesBefore(pages: seq<seq<RawImage>>, p: nat): nat
    requires p <= |pages|
  {
    if p == 0 then 0 else ImagesBefore(pages, p - 1) + |pages[p - 1]|
  }

  /** Extraction yields every image exactly once and at a predictable place:
      the stream has one entry per stored image. */
  lemma {:induction false} ExtractLength(pages: seq<seq<RawImage>>)
    ensures |Extract(pages)| == ImagesBefore(pages, |pages|)
    decreases |pages|
  {
    if |pages| > 0 {
      var n := |pages| - 1;
      ExtractLength(pages[..n]);
      ImagesBeforePrefixAt(pages, n, n);
    }
  }

  /** Image `i` of page `p` sits right after all images of the
      earlier pages, tagged with its page number and in-page position. */
  lemma {:induction false} ExtractAt(pages: seq<seq<RawImage>>, p: nat, i: nat)
    requires p < |pages| && i < |pages[p]|
    ensures ImagesBefore(pages, p) + i < |Extract(pages)|
    ensures Extract(pages)[ImagesBefore(pages, p) + i] == PageImages(p, pages[p])[i]
    ensures var s := Extract(pages)[ImagesBefore(pages, p) + i];
            s.page == p && s.index == i && Raw(s) == pages[p][i]
    decreases |pages|
  {
    var n := |pages| - 1;
    var init := pages[..n];
    var prefix := Extract(init);
    ExtractLength(init);
    ImagesBeforePrefixAt(pages, n, n);
    var at := ImagesBefore(pages, p) + i;
    if p < n {
      ExtractAt(init, p, i);
      assert pages[p] == init[p];
      ImagesBeforePrefixAt(pages, n, p);
      ImagesBeforeMonotone(pages, p + 1, n);
      assert Extract(pages)[at] == prefix[at];
    } else {
      assert Extract(pages)[at] == PageImages(n, pages[n])[i];
    }
  }

  /** Counting the first `p` pages does not look beyond them. */
  lemma {:induction false} ImagesBeforePrefixAt(pages: seq<seq<RawImage>>, n: nat, p: nat)
    requires p <= n <= |pages|
    ensures ImagesBefore(pages[..n], p) == ImagesBefore(pages, p)
  {
    if p > 0 {
      ImagesBeforePrefixAt(pages, n, p - 1);
      assert pages[..n][p - 1] == pages[p - 1];
    }
  }

  lemma {:induction false} ImagesBeforeMonotone(pages: seq<seq<RawImage>>, p: nat, q: nat)
    requires p <= q <= |pages|
    ensures ImagesBefore(pages, p) <= ImagesBefore(pages, q)
    decreases q - p
  {
    if p < q {
      ImagesBeforeMonotone(pages, p, q - 1);
    }
  }
}

=== FILE: filter.dfy ===
/**
 The per-document size filter and duplicate remover. Images are examined in
 extraction order; an image is dropped when its stored payload is shorter than
 20480 bytes or when the fingerprint of that payload was already seen in the
 same document; survivors are passed through the storage optimiser and kept in
 order.

 The fingerprint (a SHA-256 hex digest in the program) and the image re-encoder
 (an image library call) are parameters: every property below holds for every
 choice of them.
 */
module Filter {
  import opened Types

  /** Content digest of a payload. */
  type Fingerprint = string

  /** Payloads shorter than this many bytes are decorations, not coupons. */
  const MinImageBytes: nat := 20480

  predicate LargeEnough(img: SourceImage) {
    |img.bytes| >= MinImageBytes
  }

  /** ASCII lower-casing of one character. */
  function LowerChar(c: char): char {
    if 'A' <= c <= 'Z' then (c as int + 32) as char else c
  }

  function Lower(s: string): (r: string)
    ensures |r| == |s|
    ensures forall i :: 0 <= i < |s| ==> r[i] == LowerChar(s[i])
  {
    seq(|s|, i requires 0 <= i < |s| => LowerChar(s[i]))
  }

  /** Lossy formats are stored as extracted; re-encoding them would lose quality. */
  predicate IsLossyExt(ext: string) {
    Lower(ext) == "jpg" || Lower(ext) == "jpeg"
  }

  /** Storage optimisation of an accepted payload. `reencode` stands for
      decoding the payload, dropping an alpha channel and saving it again in
      the same format; `None` means the image library raised. */
  function Optimize(bytes: Bytes, ext: string, reencode: (Bytes, string) -> Option<Bytes>): (r: Bytes)
    ensures IsLossyExt(ext) ==> r == bytes
    ensures !IsLossyExt(ext) && reencode(bytes, ext).Some? ==> r == reencode(bytes, ext).value
    ensures reencode(bytes, ext).None? ==> r == bytes
  {
    if IsLossyExt(ext) then bytes
    else
      match reencode(bytes, ext)
      case Some(out) => out
      case None => bytes
  }

  /** The lossy test ignores letter case: two extensions that agree once
      lower-cased are both lossy or both not. */
  lemma {:induction false} LossyExtIgnoresCase(ext: string, other: string)
    requires |ext| == |other|
    requires forall i :: 0 <= i < |ext| ==> LowerChar(ext[i]) == LowerChar(other[i])
    ensures IsLossyExt(ext) <==> IsLossyExt(other)
  {
    assert Lower(ext) == Lower(other);
  }

  /** An accepted image: the extracted record and the payload that is stored
      for it after optimisation. */
  datatype Accepted = Accepted(source: SourceImage, stored: Bytes)

  function Accept(img: SourceImage, reencode: (Bytes, string) -> Option<Bytes>): (a: Accepted)
    ensures a.source == img
  {
    Accepted(img, Optimize(img.bytes, img.ext, reencode))
  }

  /** The extracted records of a list of accepted images. */
  function Sources(kept: seq<Accepted>): (r: seq<SourceImage>)
    ensures |r| == |kept|
    ensures forall k :: 0 <= k < |kept| ==> r[k] == kept[k].source
  {
    Map((a: Accepted) => a.source, kept)
  }

  /** `a` is `b` with some elements left out and the rest in their order. */
  predicate IsSubsequence<T(==)>(a: seq<T>, b: seq<T>)
    decreases |b|
  {
    |a| == 0 ||
    (|b| > 0 &&
     ((a[|a| - 1] == b[|b| - 1] && IsSubsequence(a[..|a| - 1], b[..|b| - 1])) ||
      IsSubsequence(a, b[..|b| - 1])))
  }

  /** State of the filter after a prefix of the stream: the images kept so far
      and the fingerprints seen so far. */
  datatype FilterState = FilterState(kept: seq<Accepted>, seen: set<Fingerprint>)

  /** The filter loop over `imgs`, started with fingerprint set `seen`. The
      recursion is on the prefix, so the result is the loop's state after the
      last image. */
  function FilterImages(imgs: seq<SourceImage>, seen: set<Fingerprint>,
                        fp: Bytes -> Fingerprint,
                        reencode: (Bytes, string) -> Option<Bytes>): (r: FilterState)
    ensures seen <= r.seen
    ensures forall k :: 0 <= k < |r.kept| ==>
              LargeEnough(r.kept[k].source) &&
              fp(r.kept[k].source.bytes) in r.seen - seen
    decreases |imgs|
  {
    if |imgs| == 0 then FilterState([], seen)
    else
      var init := imgs[..|imgs| - 1];
      var prev := FilterImages(init, seen, fp, reencode);
      var img := imgs[|imgs| - 1];
      assert imgs[..|imgs| - 1] == init;
      if !LargeEnough(img) then prev
      else if fp(img.bytes) in prev.seen then prev
      else
        FilterState(prev.kept + [Accept(img, reencode)], prev.seen + {fp(img.bytes)})
  }

  /** No two kept images share a fingerprint. */
  lemma {:induction false} FilterKeepsDistinct(imgs: seq<SourceImage>, seen: set<Fingerprint>,
                                               fp: Bytes -> Fingerprint,
                                               reencode: (Bytes, string) -> Option<Bytes>)
    ensures var kept := FilterImages(imgs, seen, fp, reencode).kept;
            forall a, b :: 0 <= a < b < |kept| ==> fp(kept[a].source.bytes) != fp(kept[b].source.bytes)
    decreases |imgs|
  {
    if |imgs| > 0 {
      var init := imgs[..|imgs| - 1];
      var img := imgs[|imgs| - 1];
      FilterKeepsDistinct(init, seen, fp, reencode);
      FilterStep(init, img, seen, fp, reencode);
    }
  }

  /** Every kept image stores what the optimiser makes of its payload. */
  lemma {:induction false} FilterStoresOptimized(imgs: seq<SourceImage>, seen: set<Fingerprint>,
                                                 fp: Bytes -> Fingerprint,
                                                 reencode: (Bytes, string) -> Option<Bytes>)
    ensures var kept := FilterImages(imgs, seen, fp, reencode).kept;
            forall k :: 0 <= k < |kept| ==>
              kept[k].stored == Optimize(kept[k].source.bytes, kept[k].source.ext, reencode)
    decreases |imgs|
  {
    if |imgs| > 0 {
      var init := imgs[..|imgs| - 1];
      var img := imgs[|imgs| - 1];
      FilterStoresOptimized(init, seen, fp, reencode);
      FilterStep(init, img, seen, fp, reencode);
    }
  }

  /** The kept images are images of the stream, in stream order. */
  lemma {:induction false} FilterKeepsSubsequence(imgs: seq<SourceImage>, seen: set<Fingerprint>,
                                                  fp: Bytes -> Fingerprint,
                                                  reencode: (Bytes, string) -> Option<Bytes>)
    ensures IsSubsequence(Sources(FilterImages(imgs, seen, fp, reencode).kept), imgs)
    decreases |imgs|
  {
    if |imgs| > 0 {
      var init := imgs[..|imgs| - 1];
      var img := imgs[|imgs| - 1];
      FilterKeepsSubsequence(init, seen, fp, reencode);
      FilterStep(init, img, seen, fp, reencode);
      var prev := FilterImages(init, seen, fp, reencode).kept;
      var kept := FilterImages(imgs, seen, fp, reencode).kept;
      assert imgs[..|imgs| - 1] == init;
      if kept != prev {
        assert Sources(kept)[..|kept| - 1] == Sources(prev);
      }
    }
  }

  /** Fingerprints of the payloads of a list of accepted images. */
  function AcceptedFingerprints(kept: seq<Accepted>, fp: Bytes -> Fingerprint): set<Fingerprint> {
    set k | 0 <= k < |kept| :: fp(kept[k].source.bytes)
  }

  /** Fingerprints of the payloads of the large-enough images of a stream. */
  function LargeFingerprints(imgs: seq<SourceImage>, fp: Bytes -> Fingerprint): set<Fingerprint> {
    set j | 0 <= j < |imgs| && LargeEnough(imgs[j]) :: fp(imgs[j].bytes)
  }

  /** The seen-set only ever gains the fingerprints of accepted images: at
      every point it is the starting set plus exactly those. */
  lemma {:induction false} SeenIsAcceptedFingerprints(imgs: seq<SourceImage>, seen: set<Fingerprint>,
                                                      fp: Bytes -> Fingerprint,
                                                      reencode: (Bytes, string) -> Option<Bytes>)
    ensures FilterImages(imgs, seen, fp, reencode).seen
            == seen + AcceptedFingerprints(FilterImages(imgs, seen, fp, reencode).kept, fp)
    decreases |imgs|
  {
    if |imgs| > 0 {
      var init := imgs[..|imgs| - 1];
      SeenIsAcceptedFingerprints(init, seen, fp, reencode);
      var prev := FilterImages(init, seen, fp, reencode);
      var r := FilterImages(imgs, seen, fp, reencode);
      var img := imgs[|imgs| - 1];
      FilterStep(init, img, seen, fp, reencode);
      if LargeEnough(img) && fp(img.bytes) !in prev.seen {
        AcceptedFingerprintsSnoc(prev.kept, Accept(img, reencode), fp);
      }
    }
  }

  lemma AcceptedFingerprintsSnoc(kept: seq<Accepted>, a: Accepted, fp: Bytes -> Fingerprint)
    ensures AcceptedFingerprints(kept + [a], fp) == AcceptedFingerprints(kept, fp) + {fp(a.source.bytes)}
  {
    var all := kept + [a];
    forall x | x in AcceptedFingerprints(all, fp)
      ensures x in AcceptedFingerprints(kept, fp) + {fp(a.source.bytes)}
    {
      var k :| 0 <= k < |all| && x == fp(all[k].source.bytes);
      if k < |kept| {
        assert all[k] == kept[k];
      }
    }
    forall x | x in AcceptedFingerprints(kept, fp)
      ensures x in AcceptedFingerprints(all, fp)
    {
      var k :| 0 <= k < |kept| && x == fp(kept[k].source.bytes);
      assert all[k] == kept[k];
    }
    assert all[|kept|] == a;
  }

  /** Rejected duplicates do not change the seen-set, but every large-enough
      image's fingerprint is in it afterwards: the seen-set is the starting
      set plus the fingerprints of all large-enough images examined. */
  lemma {:induction false} SeenIsLargeFingerprints(imgs: seq<SourceImage>, seen: set<Fingerprint>,
                                                   fp: Bytes -> Fingerprint,
                                                   reencode: (Bytes, string) -> Option<Bytes>)
    ensures FilterImages(imgs, seen, fp, reencode).seen == seen + LargeFingerprints(imgs, fp)
    decreases |imgs|
  {
    if |imgs| > 0 {
      var init := imgs[..|imgs| - 1];
      SeenIsLargeFingerprints(init, seen, fp, reencode);
      var img := imgs[|imgs| - 1];
      assert LargeFingerprints(imgs, fp)
             == LargeFingerprints(init, fp) + (if LargeEnough(img) then {fp(img.bytes)} else {}) by {
        forall x | x in LargeFingerprints(imgs, fp)
          ensures x in LargeFingerprints(init, fp) + (if LargeEnough(img) then {fp(img.bytes)} else {})
        {
          var j :| 0 <= j < |imgs| && LargeEnough(imgs[j]) && x == fp(imgs[j].bytes);
          if j < |init| {
            assert imgs[j] == init[j];
          }
        }
        forall x | x in LargeFingerprints(init, fp)
          ensures x in LargeFingerprints(imgs, fp)
        {
          var j :| 0 <= j < |init| && LargeEnough(init[j]) && x == fp(init[j].bytes);
          assert imgs[j] == init[j];
        }
        if LargeEnough(img) {
          assert fp(imgs[|imgs| - 1].bytes) in LargeFingerprints(imgs, fp);
        }
      }
    }
  }

  /** Image `j` is the first large-enough image of the stream with its
      fingerprint, and that fingerprint was not known before the stream. */
  ghost predicate FirstLargeOccurrence(imgs: seq<SourceImage>, seen: set<Fingerprint>,
                                       fp: Bytes -> Fingerprint, j: nat)
    requires j < |imgs|
  {
    && LargeEnough(imgs[j])
    && fp(imgs[j].bytes) !in seen
    && forall i :: 0 <= i < j && LargeEnough(imgs[i]) ==> fp(imgs[i].bytes) != fp(imgs[j].bytes)
  }

  /** Reference definition of the filter's choice, with no seen-set: the
      images that are the first large-enough occurrence of their fingerprint,
      in stream order. */
  ghost function Admitted(imgs: seq<SourceImage>, seen: set<Fingerprint>, fp: Bytes -> Fingerprint): seq<SourceImage>
    decreases |imgs|
  {
    if |imgs| == 0 then []
    else
      Admitted(imgs[..|imgs| - 1], seen, fp)
      + (if FirstLargeOccurrence(imgs, seen, fp, |imgs| - 1) then [imgs[|imgs| - 1]] else [])
  }

  /** The filter keeps exactly the first large-enough occurrence of every
      fingerprint not already seen, in stream order. */
  lemma {:induction false} FilterKeepsFirstOccurrences(imgs: seq<SourceImage>, seen: set<Fingerprint>,
                                                       fp: Bytes -> Fingerprint,
                                                       reencode: (Bytes, string) -> Option<Bytes>)
    ensures Sources(FilterImages(imgs, seen, fp, reencode).kept) == Admitted(imgs, seen, fp)
    decreases |imgs|
  {
    if |imgs| > 0 {
      var init := imgs[..|imgs| - 1];
      var img := imgs[|imgs| - 1];
      assert imgs == init + [img];
      FilterKeepsFirstOccurrences(init, seen, fp, reencode);
      FilterStep(init, img, seen, fp, reencode);
      FirstOccurrenceStep(init, img, seen, fp, reencode);
      var prev := FilterImages(init, seen, fp, reencode);
      if LargeEnough(img) && fp(img.bytes) !in prev.seen {
        SourcesSnoc(prev.kept, Accept(img, reencode));
      }
    }
  }

  /** The filter admits the next image exactly when it is the first
      large-enough occurrence of its fingerprint. */
  lemma FirstOccurrenceStep(init: seq<SourceImage>, img: SourceImage, seen: set<Fingerprint>,
                            fp: Bytes -> Fingerprint, reencode: (Bytes, string) -> Option<Bytes>)
    ensures var prev := FilterImages(init, seen, fp, reencode);
            LargeEnough(img) && fp(img.bytes) !in prev.seen
            <==> FirstLargeOccurrence(init + [img], seen, fp, |init|)
  {
    var imgs := init + [img];
    SeenIsLargeFingerprints(init, seen, fp, reencode);
    var prev := FilterImages(init, seen, fp, reencode);
    assert imgs[|init|] == img;
    if LargeEnough(img) && fp(img.bytes) in prev.seen && fp(img.bytes) !in seen {
      var i :| 0 <= i < |init| && LargeEnough(init[i]) && fp(img.bytes) == fp(init[i].bytes);
      assert imgs[i] == init[i];
    }
    if LargeEnough(img) && fp(img.bytes) !in prev.seen {
      forall i | 0 <= i < |init| && LargeEnough(imgs[i]) ensures fp(imgs[i].bytes) != fp(img.bytes) {
        assert imgs[i] == init[i];
        assert fp(init[i].bytes) in LargeFingerprints(init, fp);
      }
    }
  }

  lemma SourcesSnoc(kept: seq<Accepted>, a: Accepted)
    ensures Sources(kept + [a]) == Sources(kept) + [a.source]
  {
  }

  /** Dedup looks only at the extracted payload: which images are kept does
      not depend on what the optimiser makes of them. */
  lemma {:induction false} SelectionIgnoresOptimizer(imgs: seq<SourceImage>, seen: set<Fingerprint>,
                                                     fp: Bytes -> Fingerprint,
                                                     reencode1: (Bytes, string) -> Option<Bytes>,
                                                     reencode2: (Bytes, string) -> Option<Bytes>)
    ensures Sources(FilterImages(imgs, seen, fp, reencode1).kept)
            == Sources(FilterImages(imgs, seen, fp, reencode2).kept)
    ensures FilterImages(imgs, seen, fp, reencode1).seen == FilterImages(imgs, seen, fp, reencode2).seen
  {
    FilterKeepsFirstOccurrences(imgs, seen, fp, reencode1);
    FilterKeepsFirstOccurrences(imgs, seen, fp, reencode2);
    SeenIsLargeFingerprints(imgs, seen, fp, reencode1);
    SeenIsLargeFingerprints(imgs, seen, fp, reencode2);
  }

  /** One more image through the filter: dropped when small or already seen,
      otherwise appended and its fingerprint recorded. */
  lemma FilterStep(imgs: seq<SourceImage>, img: SourceImage, seen: set<Fingerprint>,
                   fp: Bytes -> Fingerprint, reencode: (Bytes, string) -> Option<Bytes>)
    ensures var prev := FilterImages(imgs, seen, fp, reencode);
            FilterImages(imgs + [img], seen, fp, reencode)
            == if !LargeEnough(img) || fp(img.bytes) in prev.seen then prev
               else FilterState(prev.kept + [Accept(img, reencode)], prev.seen + {fp(img.bytes)})
  {
    assert (imgs + [img])[..|imgs|] == imgs;
  }

  /** The size threshold is inclusive: an image whose fingerprint is new is
      kept exactly when its payload has at least `MinImageBytes` bytes. */
  lemma SizeThreshold(imgs: seq<SourceImage>, img: SourceImage, seen: set<Fingerprint>,
                      fp: Bytes -> Fingerprint, reencode: (Bytes, string) -> Option<Bytes>)
    requires fp(img.bytes) !in FilterImages(imgs, seen, fp, reencode).seen
    ensures var prev := FilterImages(imgs, seen, fp, reencode).kept;
            FilterImages(imgs + [img], seen, fp, reencode).kept
            == if |img.bytes| >= MinImageBytes then prev + [Accept(img, reencode)] else prev
  {
    FilterStep(imgs, img, seen, fp, reencode);
  }

  /** A payload is never kept twice in one pass: an image repeating the
      payload of the image just before it changes nothing, whatever its
      format or dimensions. */
  lemma RepeatRejected(imgs: seq<SourceImage>, a: SourceImage, b: SourceImage, seen: set<Fingerprint>,
                       fp: Bytes -> Fingerprint, reencode: (Bytes, string) -> Option<Bytes>)
    requires a.bytes == b.bytes
    ensures FilterImages(imgs + [a] + [b], seen, fp, reencode) == FilterImages(imgs + [a], seen, fp, reencode)
  {
    FilterStep(imgs, a, seen, fp, reencode);
    FilterStep(imgs + [a], b, seen, fp, reencode);
  }

  /** A small image, then a large one, then a repeat of the large one's
      payload: only the large one is kept. */
  lemma SmallThenRepeat(s0: SourceImage, s1: SourceImage, s2: SourceImage,
                        fp: Bytes -> Fingerprint, reencode: (Bytes, string) -> Option<Bytes>)
    requires !LargeEnough(s0) && LargeEnough(s1) && s2.bytes == s1.bytes
    ensures FilterImages([s0, s1, s2], {}, fp, reencode).kept == [Accept(s1, reencode)]
  {
    FilterStep([], s0, {}, fp, reencode);
    assert [] + [s0] == [s0];
    FilterStep([s0], s1, {}, fp, reencode);
    RepeatRejected([s0], s1, s2, {}, fp, reencode);
    assert [s0] + [s1] + [s2] == [s0, s1, s2];
    assert [s0] + [s1] == [s0, s1];
  }
}

=== FILE: layout.dfy ===
/**
 The PDF composer's layout. Coupons are split into consecutive batches, one
 A4 portrait page (595 x 842 points) per batch. A page is divided into
 `cpp` equal horizontal bands separated by a 14-point gap; each band is inset
 by 5% of its height at top and bottom and by 20 points at both sides, and
 the coupon is scaled into that padded rectangle keeping its aspect ratio and
 centred in the direction it does not fill.

 Coordinates are exact reals: the program computes them in floating point.
 */
module Layout {
  import opened Types

  const PageWidth: real := 595.0
  const PageHeight: real := 842.0
  const VerticalGap: real := 14.0
  const HorizontalMargin: real := 20.0
  /** Fraction of a band's height left empty above and below the coupon. */
  const BandPadding: real := 0.05

  const MinPerPage: int := 1
  const MaxPerPage: int := 5

  /** The effective number of coupons per page: the setting forced into
      [1, 5]. */
  function ClampPerPage(n: int): (cpp: int)
    ensures MinPerPage <= cpp <= MaxPerPage
    ensures MinPerPage <= n <= MaxPerPage ==> cpp == n
    ensures n < MinPerPage ==> cpp == MinPerPage
    ensures n > MaxPerPage ==> cpp == MaxPerPage
  {
    var upper := if n < MaxPerPage then n else MaxPerPage;
    if upper > MinPerPage then upper else MinPerPage
  }

  predicate ValidPerPage(cpp: int) {
    MinPerPage <= cpp <= MaxPerPage
  }

  /** Height of one band: the page height minus the gaps, shared equally. */
  function SectionHeight(cpp: int): (s: real)
    requires ValidPerPage(cpp)
    ensures s > 0.0
    ensures cpp as real * s + (cpp - 1) as real * VerticalGap == PageHeight
  {
    (PageHeight - (cpp - 1) as real * VerticalGap) / cpp as real
  }

  /** Top edge of band `idx`: each earlier band and the gap after it. */
  function BandTop(cpp: int, idx: nat): real
    requires ValidPerPage(cpp)
  {
    idx as real * (SectionHeight(cpp) + VerticalGap)
  }

  function BandBottom(cpp: int, idx: nat): real
    requires ValidPerPage(cpp)
  {
    BandTop(cpp, idx) + SectionHeight(cpp)
  }

  datatype Rect = Rect(x0: real, y0: real, x1: real, y1: real)

  function Width(r: Rect): real {
    r.x1 - r.x0
  }

  function Height(r: Rect): real {
    r.y1 - r.y0
  }

  predicate NonEmpty(r: Rect) {
    r.x0 < r.x1 && r.y0 < r.y1
  }

  /** `inner` lies within `outer` and is not inverted. */
  predicate Inside(inner: Rect, outer: Rect) {
    outer.x0 <= inner.x0 <= inner.x1 <= outer.x1 &&
    outer.y0 <= inner.y0 <= inner.y1 <= outer.y1
  }

  /** The padded rectangle of slot `idx`: the band inset by 5% of its height
      at top and bottom and by the side margin horizontally. */
  function PaddedRect(cpp: int, idx: nat): (r: Rect)
    requires ValidPerPage(cpp) && idx < cpp
    ensures NonEmpty(r)
    ensures Inside(r, Rect(HorizontalMargin, 0.0, PageWidth - HorizontalMargin, PageHeight))
    ensures r.x0 == HorizontalMargin && r.x1 == PageWidth - HorizontalMargin
    ensures BandTop(cpp, idx) < r.y0 && r.y1 < BandBottom(cpp, idx)
  {
    var s := SectionHeight(cpp);
    var top := BandTop(cpp, idx);
    assert top + s <= PageHeight by {
      BandsFillPage(cpp);
      assert idx as real <= (cpp - 1) as real;
      assert top <= (cpp - 1) as real * (s + VerticalGap);
    }
    Rect(HorizontalMargin, top + s * BandPadding, PageWidth - HorizontalMargin, top + s - s * BandPadding)
  }

  /** Consecutive bands are separated by exactly the gap, so they never
      overlap; the first starts at the page top and the last ends exactly at
      the page bottom. */
  lemma BandsFillPage(cpp: int)
    requires ValidPerPage(cpp)
    ensures BandTop(cpp, 0) == 0.0
    ensures forall idx: nat :: idx + 1 < cpp ==> BandBottom(cpp, idx) + VerticalGap == BandTop(cpp, idx + 1)
    ensures BandBottom(cpp, cpp - 1) == PageHeight
  {
    var s := SectionHeight(cpp);
    assert (cpp - 1) as real * (s + VerticalGap) + s == cpp as real * s + (cpp - 1) as real * VerticalGap;
  }

  /** The coupon is wide enough that it fills the width of `pad` and is
      centred vertically. */
  predicate FillsWidth(r: Rect, pad: Rect) {
    r.x0 == pad.x0 && r.x1 == pad.x1 && r.y0 - pad.y0 == pad.y1 - r.y1
  }

  /** The coupon fills the height of `pad` and is centred horizontally. */
  predicate FillsHeight(r: Rect, pad: Rect) {
    r.y0 == pad.y0 && r.y1 == pad.y1 && r.x0 - pad.x0 == pad.x1 - r.x1
  }

  /** The rectangle has the pixel aspect ratio `w : h`. */
  predicate KeepsAspect(r: Rect, w: nat, h: nat) {
    Width(r) * h as real == Height(r) * w as real
  }

  /** Aspect-preserving fit of a `w` x `h` pixel image into `pad`. A zero
      height makes the program's aspect division raise, which is `None`. */
  function Fit(pad: Rect, w: nat, h: nat): (r: Option<Rect>)
    requires NonEmpty(pad)
    ensures r.None? <==> h == 0
    ensures r.Some? ==> Inside(r.value, pad) && KeepsAspect(r.value, w, h)
    ensures r.Some? && w > 0 ==> NonEmpty(r.value)
    ensures r.Some? && w as real * Height(pad) > Width(pad) * h as real ==> FillsWidth(r.value, pad)
    ensures r.Some? && w as real * Height(pad) <= Width(pad) * h as real ==> FillsHeight(r.value, pad)
  {
    if h == 0 then None
    else
      var imgAspect := w as real / h as real;
      var rectAspect := Width(pad) / Height(pad);
      AspectCompare(w, h, Width(pad), Height(pad));
      if imgAspect > rectAspect then
        FillWidthPlacement(pad, w, h);
        Some(FillWidth(pad, w, h))
      else
        FillHeightPlacement(pad, w, h);
        Some(FillHeight(pad, w, h))
  }

  /** The image wider than `pad`: full padded width, scaled height, centred
      vertically. */
  function FillWidth(pad: Rect, w: nat, h: nat): Rect
    requires NonEmpty(pad) && h > 0 && w as real / h as real > Width(pad) / Height(pad)
  {
    var newHeight := Width(pad) / (w as real / h as real);
    var y0 := pad.y0 + (Height(pad) - newHeight) / 2.0;
    Rect(pad.x0, y0, pad.x1, y0 + newHeight)
  }

  /** The image no wider than `pad`: full padded height, scaled width,
      centred horizontally. */
  function FillHeight(pad: Rect, w: nat, h: nat): Rect
    requires NonEmpty(pad) && h > 0
  {
    var newWidth := Height(pad) * (w as real / h as real);
    var x0 := pad.x0 + (Width(pad) - newWidth) / 2.0;
    Rect(x0, pad.y0, x0 + newWidth, pad.y1)
  }

  lemma FillWidthPlacement(pad: Rect, w: nat, h: nat)
    requires NonEmpty(pad) && h > 0 && w as real / h as real > Width(pad) / Height(pad)
    ensures var r := FillWidth(pad, w, h);
            Inside(r, pad) && KeepsAspect(r, w, h) && NonEmpty(r) && FillsWidth(r, pad)
  {
    FitWidthBounds(w, h, Width(pad), Height(pad));
  }

  lemma FillHeightPlacement(pad: Rect, w: nat, h: nat)
    requires NonEmpty(pad) && h > 0 && w as real / h as real <= Width(pad) / Height(pad)
    ensures var r := FillHeight(pad, w, h);
            Inside(r, pad) && KeepsAspect(r, w, h) && (w > 0 ==> NonEmpty(r)) && FillsHeight(r, pad)
  {
    FitHeightBounds(w, h, Width(pad), Height(pad));
  }

  /** Comparing aspect ratios is comparing the cross products. */
  lemma AspectCompare(w: nat, h: nat, pw: real, ph: real)
    requires h > 0 && pw > 0.0 && ph > 0.0
    ensures w as real / h as real > pw / ph <==> w as real * ph > pw * h as real
  {
    var a := w as real / h as real;
    var b := pw / ph;
    assert a * h as real == w as real;
    assert b * ph == pw;
    if a > b {
      assert a * (h as real * ph) > b * (h as real * ph);
    }
    if w as real * ph > pw * h as real {
      assert a * (h as real * ph) > b * (h as real * ph);
    }
  }

  /** In the fill-width branch the scaled height fits the padded height. */
  lemma FitWidthBounds(w: nat, h: nat, pw: real, ph: real)
    requires h > 0 && pw > 0.0 && ph > 0.0
    requires w as real / h as real > pw / ph
    ensures 0.0 < pw / (w as real / h as real) < ph
    ensures pw * h as real == pw / (w as real / h as real) * w as real
  {
    AspectCompare(w, h, pw, ph);
    var a := w as real / h as real;
    assert a * h as real == w as real;
    assert a > 0.0;
    var nh := pw / a;
    assert nh * a == pw;
    assert nh * a < ph * a;
    assert nh * w as real == nh * a * h as real;
  }

  /** In the fill-height branch the scaled width fits the padded width. */
  lemma FitHeightBounds(w: nat, h: nat, pw: real, ph: real)
    requires h > 0 && pw > 0.0 && ph > 0.0
    requires w as real / h as real <= pw / ph
    ensures 0.0 <= ph * (w as real / h as real) <= pw
    ensures w > 0 ==> ph * (w as real / h as real) > 0.0
    ensures ph * (w as real / h as real) * h as real == ph * w as real
  {
    AspectCompare(w, h, pw, ph);
    var a := w as real / h as real;
    assert a * h as real == w as real;
    assert ph * a * h as real <= pw * h as real;
  }

  /** The elements of a list of lists, in order. */
  function Flatten<T>(xss: seq<seq<T>>): seq<T>
    decreases |xss|
  {
    if |xss| == 0 then [] else xss[0] + Flatten(xss[1..])
  }

  /** `xs` cut into consecutive runs of `k`, the last run possibly shorter. */
  function Batches<T>(xs: seq<T>, k: nat): (r: seq<seq<T>>)
    requires k >= 1
    ensures forall b :: 0 <= b < |r| ==> 1 <= |r[b]| <= k
    ensures forall b :: 0 <= b < |r| - 1 ==> |r[b]| == k
    decreases |xs|
  {
    if |xs| == 0 then []
    else if |xs| <= k then [xs]
    else [xs[..k]] + Batches(xs[k..], k)
  }

  /** Batching loses, repeats and reorders nothing: reading the batches in
      order gives back the list. */
  lemma {:induction false} BatchesFlatten<T>(xs: seq<T>, k: nat)
    requires k >= 1
    ensures Flatten(Batches(xs, k)) == xs
    decreases |xs|
  {
    var r := Batches(xs, k);
    if |xs| == 0 {
    } else if |xs| <= k {
      assert Flatten(r) == xs + Flatten(r[1..]);
    } else {
      BatchesFlatten(xs[k..], k);
      assert r[0] == xs[..k] && r[1..] == Batches(xs[k..], k);
      assert xs == xs[..k] + xs[k..];
    }
  }

  lemma {:induction false} FlattenSnoc<T>(xss: seq<seq<T>>, xs: seq<T>)
    ensures Flatten(xss + [xs]) == Flatten(xss) + xs
    decreases |xss|
  {
    if |xss| == 0 {
      assert ([] + [xs])[1..] == [];
    } else {
      assert (xss + [xs])[1..] == xss[1..] + [xs];
      FlattenSnoc(xss[1..], xs);
    }
  }

  /** The number of batches is the ceiling of `|xs| / k`: enough runs of `k`
      to cover `xs`, and one fewer would not. */
  lemma {:induction false} BatchCount<T>(xs: seq<T>, k: nat)
    requires k >= 1
    ensures |xs| == 0 <==> |Batches(xs, k)| == 0
    ensures |Batches(xs, k)| > 0 ==> (|Batches(xs, k)| - 1) * k < |xs| <= |Batches(xs, k)| * k
    decreases |xs|
  {
    if |xs| > k {
      BatchCount(xs[k..], k);
      var n := |Batches(xs[k..], k)|;
      assert |Batches(xs, k)| == n + 1;
      assert (n + 1) * k == n * k + k;
    }
  }

  /** End of the slice `xs[start:start + k]` in the program: cut short at the
      end of the list. */
  function SliceEnd(n: nat, start: nat, k: nat): nat {
    if start + k <= n then start + k else n
  }

  /** The number of batches is the ceiling of `|xs| / k`, written as the
      program's integer arithmetic would: `(|xs| + k - 1) / k`. */
  lemma BatchCountIsCeiling<T>(xs: seq<T>, k: nat)
    requires k >= 1
    ensures |Batches(xs, k)| == (|xs| + k - 1) / k
  {
    BatchCount(xs, k);
    var c := |Batches(xs, k)|;
    if c > 0 {
      MulSucc(c - 1, k);
      ModUnique(|xs| + k - 1, k, c, |xs| + k - 1 - c * k);
    } else {
      ModUnique(|xs| + k - 1, k, 0, k - 1);
    }
  }

  /** Batch `b` is the program's slice `images[i:i+cpp]` for `i = b * k`:
      batching by recursion agrees with the program's stepped range loop. */
  lemma BatchIsSlice<T>(xs: seq<T>, k: nat, b: nat)
    requires k >= 1 && b < |Batches(xs, k)|
    ensures b * k < |xs|
    ensures Batches(xs, k)[b] == xs[b * k .. SliceEnd(|xs|, b * k, k)]
  {
    BatchAt(xs, k, b, b * k);
  }

  lemma {:induction false} BatchAt<T>(xs: seq<T>, k: nat, b: nat, start: nat)
    requires k >= 1 && b < |Batches(xs, k)| && start == b * k
    ensures start < |xs|
    ensures Batches(xs, k)[b] == xs[start .. SliceEnd(|xs|, start, k)]
    decreases |xs|
  {
    if b == 0 {
      if |xs| <= k {
        assert Batches(xs, k) == [xs];
      } else {
        assert Batches(xs, k)[0] == xs[..k];
      }
    } else {
      BatchesOfShort(xs, k);
      var tail := xs[k..];
      var rest := Batches(tail, k);
      assert Batches(xs, k) == [xs[..k]] + rest;
      var m := start - k;
      assert m == (b - 1) * k by {
        MulSucc(b - 1, k);
      }
      BatchAt(tail, k, b - 1, m);
      var e := SliceEnd(|tail|, m, k);
      assert rest[b - 1] == tail[m..e];
      SliceOfDrop(xs, k, m, e);
      assert Batches(xs, k)[b] == rest[b - 1];
      assert m + k == start && e + k == SliceEnd(|xs|, start, k);
    }
  }

  /** Element `i` of batch `b` is element `b * k + i` of the input. */
  lemma BatchElement<T>(xs: seq<T>, k: nat, b: nat, i: nat)
    requires k >= 1 && b < |Batches(xs, k)| && i < |Batches(xs, k)[b]|
    ensures 0 <= b * k + i < |xs| && Batches(xs, k)[b][i] == xs[b * k + i]
  {
    var start := b * k;
    BatchAt(xs, k, b, start);
    var slice := xs[start .. SliceEnd(|xs|, start, k)];
    assert slice[i] == xs[start + i];
  }

  lemma BatchesOfShort<T>(xs: seq<T>, k: nat)
    requires k >= 1
    ensures |xs| <= k ==> |Batches(xs, k)| <= 1
  {
  }

  lemma SliceOfDrop<T>(xs: seq<T>, k: nat, lo: nat, hi: nat)
    requires k <= |xs| && lo <= hi <= |xs| - k
    ensures xs[k..][lo..hi] == xs[lo + k .. hi + k]
  {
  }

  lemma MulSucc(a: nat, k: nat)
    ensures (a + 1) * k == a * k + k
    ensures a > 0 ==> a * k == (a - 1) * k + k
  {
  }

  /** The last batch holds the remainder of `|xs|` divided by `k`, or a full
      `k` when the division is exact. */
  lemma {:induction false} LastBatchSize<T>(xs: seq<T>, k: nat)
    requires k >= 1 && |xs| > 0
    ensures |Batches(xs, k)[|Batches(xs, k)| - 1]| == if |xs| % k == 0 then k else |xs| % k
    decreases |xs|
  {
    if |xs| > k {
      LastBatchSize(xs[k..], k);
      var rest := Batches(xs[k..], k);
      assert Batches(xs, k)[|Batches(xs, k)| - 1] == rest[|rest| - 1];
      ModMinus(|xs|, k);
    } else if |xs| == k {
      ModUnique(|xs|, k, 1, 0);
    } else {
      ModUnique(|xs|, k, 0, |xs|);
    }
  }

  /** Division with remainder is unique. */
  lemma ModUnique(n: int, k: int, q: int, m: int)
    requires k > 0 && 0 <= m < k && n == q * k + m
    ensures n % k == m && n / k == q
  {
    var d := n / k - q;
    assert n == (n / k) * k + n % k;
    assert d * k == m - n % k by {
      assert (n / k) * k - q * k == d * k;
    }
  }

  lemma ModMinus(n: nat, k: nat)
    requires k >= 1 && n >= k
    ensures n % k == (n - k) % k
  {
    var q := (n - k) / k;
    var m := (n - k) % k;
    assert n - k == q * k + m;
    MulSucc(q, k);
    ModUnique(n, k, q + 1, m);
  }

  /** An element of a flattened list comes from one of its parts, and every
      element of every part is in the flattened list. */
  lemma {:induction false} FlattenMembership<T>(xss: seq<seq<T>>, x: T)
    ensures x in Flatten(xss) <==> exists b :: 0 <= b < |xss| && x in xss[b]
    decreases |xss|
  {
    if |xss| > 0 {
      FlattenMembership(xss[1..], x);
      if x in xss[0] {
      } else if exists b :: 0 <= b < |xss| && x in xss[b] {
        var b :| 0 <= b < |xss| && x in xss[b];
        assert x in xss[1..][b - 1];
      }
    }
  }

  /** A coupon placed on a page: its stored payload and its rectangle. */
  datatype Placement = Placement(data: Bytes, rect: Rect)

  /** `p` shows coupon `c` inside `pad` as the composer promises. */
  predicate ProperlyPlaced(p: Placement, c: Coupon, pad: Rect) {
    && p.data == c.data
    && Inside(p.rect, pad)
    && KeepsAspect(p.rect, c.width, c.height)
    && (c.width > 0 ==> NonEmpty(p.rect))
    && (FillsWidth(p.rect, pad) || FillsHeight(p.rect, pad))
  }

  /** The placements of one page: coupon `i` of the batch in slot `i`. */
  function PlaceBatch(batch: seq<Coupon>, cpp: int): (r: Option<seq<Placement>>)
    requires ValidPerPage(cpp) && |batch| <= cpp
    ensures r.None? <==> exists i :: 0 <= i < |batch| && batch[i].height == 0
    ensures r.Some? ==> |r.value| == |batch|
    ensures r.Some? ==> forall i :: 0 <= i < |batch| ==> ProperlyPlaced(r.value[i], batch[i], PaddedRect(cpp, i))
    decreases |batch|
  {
    if |batch| == 0 then Some([])
    else
      var n := |batch| - 1;
      var init := batch[..n];
      match PlaceBatch(init, cpp)
      case None =>
        assert exists i :: 0 <= i < |init| && init[i].height == 0;
        None
      case Some(ps) =>
        var c := batch[n];
        var pad := PaddedRect(cpp, n);
        match Fit(pad, c.width, c.height)
        case None => None
        case Some(rect) =>
          var r := ps + [Placement(c.data, rect)];
          assert forall i :: 0 <= i < n ==> batch[i] == init[i];
          Some(r)
  }

  /** The pages for a list of batches, failing if any coupon cannot be fitted. */
  function PlacePages(batches: seq<seq<Coupon>>, cpp: int): (r: Option<seq<seq<Placement>>>)
    requires ValidPerPage(cpp)
    requires forall b :: 0 <= b < |batches| ==> |batches[b]| <= cpp
    ensures r.None? <==> exists b, i :: 0 <= b < |batches| && 0 <= i < |batches[b]| && batches[b][i].height == 0
    ensures r.Some? ==> |r.value| == |batches|
    ensures r.Some? ==> forall b :: 0 <= b < |batches| ==> |r.value[b]| == |batches[b]|
    decreases |batches|
  {
    if |batches| == 0 then Some([])
    else
      var n := |batches| - 1;
      var init := batches[..n];
      assert forall b :: 0 <= b < n ==> batches[b] == init[b];
      match PlacePages(init, cpp)
      case None => None
      case Some(pages) =>
        match PlaceBatch(batches[n], cpp)
        case None => None
        case Some(page) =>
          var r := pages + [page];
          assert forall b :: 0 <= b < n ==> r[b] == pages[b];
          assert r[n] == page;
          Some(r)
  }

  /** Coupon `i` of batch `b` is shown in slot `i` of page `b`, placed as
      `ProperlyPlaced` describes. */
  lemma {:induction false} PlacePagesSlot(batches: seq<seq<Coupon>>, cpp: int, b: nat, i: nat)
    requires ValidPerPage(cpp)
    requires forall k :: 0 <= k < |batches| ==> |batches[k]| <= cpp
    requires PlacePages(batches, cpp).Some? && b < |batches| && i < |batches[b]|
    ensures ProperlyPlaced(PlacePages(batches, cpp).value[b][i], batches[b][i], PaddedRect(cpp, i))
    decreases |batches|
  {
    var n := |batches| - 1;
    var init := batches[..n];
    assert forall k :: 0 <= k < n ==> batches[k] == init[k];
    var pages := PlacePages(init, cpp).value;
    var page := PlaceBatch(batches[n], cpp).value;
    var all := PlacePages(batches, cpp).value;
    assert all == pages + [page];
    if b < n {
      PlacePagesSlot(init, cpp, b, i);
      assert all[b] == pages[b];
    } else {
      assert all[b] == page;
    }
  }

  /** The program's `create_pdf` without the PDF library: clamp the setting,
      cut the coupons into batches and lay out one page per batch. */
  function Compose(coupons: seq<Coupon>, couponsPerPage: int): (r: Option<seq<seq<Placement>>>)
    ensures r.None? <==> exists c :: c in coupons && c.height == 0
    ensures r.Some? ==> |r.value| == |Batches(coupons, ClampPerPage(couponsPerPage))|
    ensures r.Some? ==> forall p :: 0 <= p < |r.value| ==> |r.value[p]| <= ClampPerPage(couponsPerPage)
  {
    var cpp := ClampPerPage(couponsPerPage);
    var batches := Batches(coupons, cpp);
    BatchesFlatten(coupons, cpp);
    assert (exists c :: c in coupons && c.height == 0)
           <==> exists b, i :: 0 <= b < |batches| && 0 <= i < |batches[b]| && batches[b][i].height == 0 by {
      if c :| c in coupons && c.height == 0 {
        FlattenMembership(batches, c);
        var b :| 0 <= b < |batches| && c in batches[b];
        var i :| 0 <= i < |batches[b]| && batches[b][i] == c;
      }
      if exists b, i :: 0 <= b < |batches| && 0 <= i < |batches[b]| && batches[b][i].height == 0 {
        var b, i :| 0 <= b < |batches| && 0 <= i < |batches[b]| && batches[b][i].height == 0;
        FlattenMembership(batches, batches[b][i]);
      }
    }
    PlacePages(batches, cpp)
  }

  /** Slots are stacked top to bottom: the padded rectangle of an earlier
      slot ends strictly above that of a later one. */
  lemma SlotsStacked(cpp: int, i: nat, j: nat)
    requires ValidPerPage(cpp) && i < j < cpp
    ensures PaddedRect(cpp, i).y1 < PaddedRect(cpp, j).y0
  {
    var s := SectionHeight(cpp);
    assert (j - i) as real * (s + VerticalGap) >= s + VerticalGap by {
      assert ((j - i) as real - 1.0) * (s + VerticalGap) >= 0.0;
    }
    assert BandTop(cpp, j) - BandTop(cpp, i) == (j - i) as real * (s + VerticalGap);
  }

  /** The stored payloads of placements, in order. */
  function PlacementData(ps: seq<Placement>): (r: seq<Bytes>)
    ensures |r| == |ps|
    ensures forall i :: 0 <= i < |ps| ==> r[i] == ps[i].data
  {
    Map((p: Placement) => p.data, ps)
  }

  /** The payloads of coupons, in order. */
  function CouponData(cs: seq<Coupon>): (r: seq<Bytes>)
    ensures |r| == |cs|
    ensures forall i :: 0 <= i < |cs| ==> r[i] == cs[i].data
  {
    Map((c: Coupon) => c.data, cs)
  }

  lemma {:induction false} FlattenData(pss: seq<seq<Placement>>, css: seq<seq<Coupon>>)
    requires |pss| == |css|
    requires forall b :: 0 <= b < |pss| ==> PlacementData(pss[b]) == CouponData(css[b])
    ensures PlacementData(Flatten(pss)) == CouponData(Flatten(css))
    decreases |pss|
  {
    if |pss| > 0 {
      FlattenData(pss[1..], css[1..]);
      assert PlacementData(Flatten(pss)) == PlacementData(pss[0]) + PlacementData(Flatten(pss[1..]));
      assert CouponData(Flatten(css)) == CouponData(css[0]) + CouponData(Flatten(css[1..]));
    }
  }

  /** Page count and fill when no coupon has zero height: one page per batch
      of `cpp` coupons, so the ceiling of `|coupons| / cpp` pages, every page
      but the last full and none empty. */
  lemma ComposePageCount(coupons: seq<Coupon>, couponsPerPage: int)
    requires Compose(coupons, couponsPerPage).Some?
    ensures var pages := Compose(coupons, couponsPerPage).value;
            var cpp := ClampPerPage(couponsPerPage);
            && (|coupons| == 0 <==> |pages| == 0)
            && (|pages| > 0 ==> (|pages| - 1) * cpp < |coupons| <= |pages| * cpp)
            && (forall p :: 0 <= p < |pages| ==> 1 <= |pages[p]| <= cpp)
            && (forall p :: 0 <= p < |pages| - 1 ==> |pages[p]| == cpp)
  {
    BatchCount(coupons, ClampPerPage(couponsPerPage));
  }

  /** Slot `i` of page `p` shows coupon `p * cpp + i`, placed in the padded
      rectangle of slot `i` as `ProperlyPlaced` describes. */
  lemma ComposeSlot(coupons: seq<Coupon>, couponsPerPage: int, pages: seq<seq<Placement>>, p: nat, i: nat)
    requires Compose(coupons, couponsPerPage) == Some(pages)
    requires p < |pages| && i < |pages[p]|
    ensures var cpp := ClampPerPage(couponsPerPage);
            var k := p * cpp + i;
            && i < cpp
            && 0 <= k < |coupons|
            && ProperlyPlaced(pages[p][i], coupons[k], PaddedRect(cpp, i))
  {
    var cpp := ClampPerPage(couponsPerPage);
    var batches := Batches(coupons, cpp);
    assert PlacePages(batches, cpp) == Some(pages);
    PlacePagesSlot(batches, cpp, p, i);
    BatchElement(coupons, cpp, p, i);
  }

  /** Reading the pages in order gives back every coupon's payload exactly
      once and in the original order. */
  lemma ComposeKeepsOrder(coupons: seq<Coupon>, couponsPerPage: int)
    requires Compose(coupons, couponsPerPage).Some?
    ensures PlacementData(Flatten(Compose(coupons, couponsPerPage).value)) == CouponData(coupons)
  {
    var cpp := ClampPerPage(couponsPerPage);
    var batches := Batches(coupons, cpp);
    var pages := PlacePages(batches, cpp).value;
    assert Compose(coupons, couponsPerPage).value == pages;
    forall b | 0 <= b < |pages| ensures PlacementData(pages[b]) == CouponData(batches[b]) {
      assert |pages[b]| == |batches[b]|;
      forall i | 0 <= i < |pages[b]| ensures pages[b][i].data == batches[b][i].data {
        PlacePagesSlot(batches, cpp, b, i);
      }
    }
    FlattenData(pages, batches);
    BatchesFlatten(coupons, cpp);
  }

  /** Coupons on one page never overlap: each lies in its own band, above
      the next one, and inside the page's side margins. */
  lemma PageCouponsDisjoint(coupons: seq<Coupon>, couponsPerPage: int, pages: seq<seq<Placement>>,
                            p: nat, i: nat, j: nat)
    requires Compose(coupons, couponsPerPage) == Some(pages)
    requires p < |pages| && i < j < |pages[p]|
    ensures pages[p][i].rect.y1 < pages[p][j].rect.y0
    ensures var r := pages[p][i].rect;
            HorizontalMargin <= r.x0 <= r.x1 <= PageWidth - HorizontalMargin && 0.0 <= r.y0 <= r.y1 <= PageHeight
  {
    var cpp := ClampPerPage(couponsPerPage);
    ComposeSlot(coupons, couponsPerPage, pages, p, i);
    ComposeSlot(coupons, couponsPerPage, pages, p, j);
    SlotsStacked(cpp, i, j);
  }
}

=== FILE: naming.dfy ===
/**
 Output file names. An extracted image of document `dir/name.fdf` found as
 image `i` (0-based) of page `p` (0-based) is written as
 `coupon_<name>_p<p+1>_i<i+1>.<ext>`, where `<name>` is the base name with its
 last four characters cut off; the per-document PDF takes the base name with
 every ".fdf" replaced by ".pdf"; the merged PDF has a fixed name.
 */
module Naming {
  import opened Types

  // ---------------------------------------------------------------------
  // Decimal numerals (Python's str() of a non-negative int)
  // ---------------------------------------------------------------------

  predicate IsDigit(c: char) {
    '0' <= c <= '9'
  }

  function DigitChar(d: nat): (c: char)
    requires d < 10
    ensures IsDigit(c)
  {
    ('0' as int + d) as char
  }

  function DigitValue(c: char): nat
    requires IsDigit(c)
  {
    c as int - '0' as int
  }

  /** Decimal rendering of `n`, most significant digit first. */
  function NatToString(n: nat): (s: string)
    ensures |s| > 0
    ensures forall i :: 0 <= i < |s| ==> IsDigit(s[i])
    ensures s[0] == '0' ==> n == 0
    decreases n
  {
    if n < 10 then [DigitChar(n)] else NatToString(n / 10) + [DigitChar(n % 10)]
  }

  /** Value of a string of decimal digits. */
  function DecimalValue(s: string): nat
    requires forall i :: 0 <= i < |s| ==> IsDigit(s[i])
    decreases |s|
  {
    if |s| == 0 then 0 else DecimalValue(s[..|s| - 1]) * 10 + DigitValue(s[|s| - 1])
  }

  /** Reading a rendered number gives the number back. */
  lemma {:induction false} DecimalRoundTrip(n: nat)
    ensures DecimalValue(NatToString(n)) == n
    decreases n
  {
    if n >= 10 {
      DecimalRoundTrip(n / 10);
      var s := NatToString(n);
      assert s[..|s| - 1] == NatToString(n / 10);
    }
  }

  // ---------------------------------------------------------------------
  // Path pieces
  // ---------------------------------------------------------------------

  /** The text after the last '/' (os.path.basename on POSIX). */
  function Basename(path: string): (r: string)
    ensures '/' !in r
    ensures |r| <= |path| && r == path[|path| - |r|..]
    decreases |path|
  {
    if |path| == 0 then ""
    else if path[|path| - 1] == '/' then ""
    else Basename(path[..|path| - 1]) + [path[|path| - 1]]
  }

  /** The base name is exactly the last segment: it holds no '/', ends the
      path, and reaches back either to the start of the path or to a '/'. */
  lemma {:induction false} BasenameIsLastSegment(path: string)
    ensures var r := Basename(path);
            && '/' !in r && r == path[|path| - |r|..]
            && (|r| == |path| || path[|path| - |r| - 1] == '/')
    decreases |path|
  {
    if |path| > 0 && path[|path| - 1] != '/' {
      var init := path[..|path| - 1];
      BasenameIsLastSegment(init);
      var r := Basename(init);
      assert Basename(path) == r + [path[|path| - 1]];
      if |r| < |init| {
        assert path[|path| - |r| - 2] == init[|init| - |r| - 1];
      }
    }
  }

  /** Base name of `dir/name` is `name` whenever `name` has no '/'. */
  lemma {:induction false} BasenameOfJoin(dir: string, name: string)
    requires '/' !in name
    ensures Basename(dir + "/" + name) == name
    decreases |name|
  {
    var path := dir + "/" + name;
    if |name| == 0 {
      assert path[|path| - 1] == '/';
    } else {
      var init := name[..|name| - 1];
      assert path[..|path| - 1] == dir + "/" + init;
      assert path[|path| - 1] == name[|name| - 1];
      assert '/' !in init by {
        assert forall k :: 0 <= k < |init| ==> init[k] == name[k];
      }
      BasenameOfJoin(dir, init);
      assert init + [name[|name| - 1]] == name;
    }
  }

  /** Python's `name[:-4]`: all but the last four characters, empty when the
      name is shorter. */
  function Stem(name: string): (r: string)
    ensures |name| >= 4 ==> |r| == |name| - 4 && name == r + name[|name| - 4..]
    ensures |name| < 4 ==> r == ""
  {
    if |name| >= 4 then name[..|name| - 4] else ""
  }

  // ---------------------------------------------------------------------
  // Extracted image names
  // ---------------------------------------------------------------------

  const ImagePrefix: string := "coupon_"

  /** Name of the file an extracted image is written to; `page` and `index`
      are 0-based and appear 1-based in the name. */
  function ImageFileName(stem: string, page: nat, index: nat, ext: string): string {
    ImagePrefix + stem + "_p" + NatToString(page + 1) + "_i" + NatToString(index + 1) + "." + ext
  }

  /** The parts an image file name is made of. */
  datatype ImageNameParts = ImageNameParts(stem: string, page: nat, index: nat, ext: string)

  /** Split `s` at the last occurrence of `c`. */
  function SplitLast(s: string, c: char): (r: Option<(string, string)>)
    ensures r.Some? ==> s == r.value.0 + [c] + r.value.1 && c !in r.value.1
    ensures r.None? ==> c !in s
    decreases |s|
  {
    if |s| == 0 then None
    else if s[|s| - 1] == c then Some((s[..|s| - 1], ""))
    else
      match SplitLast(s[..|s| - 1], c)
      case None => None
      case Some((a, b)) => Some((a, b + [s[|s| - 1]]))
  }

  lemma {:induction false} SplitLastOf(a: string, c: char, b: string)
    requires c !in b
    ensures SplitLast(a + [c] + b, c) == Some((a, b))
    decreases |b|
  {
    var s := a + [c] + b;
    if |b| == 0 {
      assert s[..|s| - 1] == a;
    } else {
      var init := b[..|b| - 1];
      assert s[..|s| - 1] == a + [c] + init;
      SplitLastOf(a, c, init);
      assert init + [b[|b| - 1]] == b;
    }
  }

  /** Reads a tagged, 1-based number such as "p3" back as 0-based 2. */
  function ParseTagged(tag: char, s: string): Option<nat> {
    if |s| >= 2 && s[0] == tag && (forall i :: 1 <= i < |s| ==> IsDigit(s[i])) && DecimalValue(s[1..]) >= 1
    then Some(DecimalValue(s[1..]) - 1)
    else None
  }

  /** Recovers the parts from an extracted image's file name, reading from
      the right: the extension after the last '.', then the index and page
      numbers after the last two '_'. */
  function ParseImageFileName(name: string): Option<ImageNameParts> {
    if |name| < |ImagePrefix| || name[..|ImagePrefix|] != ImagePrefix then None
    else
      match SplitLast(name[|ImagePrefix|..], '.')
      case None => None
      case Some((left, ext)) =>
        match SplitLast(left, '_')
        case None => None
        case Some((left2, iPart)) =>
          match SplitLast(left2, '_')
          case None => None
          case Some((stem, pPart)) =>
            match (ParseTagged('p', pPart), ParseTagged('i', iPart))
            case (Some(page), Some(index)) => Some(ImageNameParts(stem, page, index, ext))
            case _ => None
  }

  lemma ParseTaggedNumber(tag: char, n: nat)
    ensures ParseTagged(tag, [tag] + NatToString(n + 1)) == Some(n)
  {
    var s := [tag] + NatToString(n + 1);
    assert s[1..] == NatToString(n + 1);
    DecimalRoundTrip(n + 1);
  }

  /** Image file names can be read back: for an extension without '.', the
      name determines the stem, page, index and extension it was built from. */
  lemma ImageFileNameRoundTrip(stem: string, page: nat, index: nat, ext: string)
    requires '.' !in ext
    ensures ParseImageFileName(ImageFileName(stem, page, index, ext)) == Some(ImageNameParts(stem, page, index, ext))
  {
    var pNum := NatToString(page + 1);
    var iNum := NatToString(index + 1);
    var name := ImageFileName(stem, page, index, ext);
    var left2 := stem + "_p" + pNum;
    var left := left2 + "_i" + iNum;
    assert name[..|ImagePrefix|] == ImagePrefix && name[|ImagePrefix|..] == left + ['.'] + ext by {
      assert name == ImagePrefix + (left + "." + ext);
    }
    assert SplitLast(name[|ImagePrefix|..], '.') == Some((left, ext)) by {
      SplitLastOf(left, '.', ext);
    }
    SplitTagged(left2, 'i', index + 1);
    SplitTagged(stem, 'p', page + 1);
    ParseTaggedNumber('p', page);
    ParseTaggedNumber('i', index);
  }

  /** A number tagged and appended after '_' is split off again at the last '_'. */
  lemma SplitTagged(front: string, tag: char, n: nat)
    requires tag != '_'
    ensures SplitLast(front + ['_', tag] + NatToString(n), '_') == Some((front, [tag] + NatToString(n)))
  {
    var digits := NatToString(n);
    var part := [tag] + digits;
    assert '_' !in part by {
      assert forall i :: 0 <= i < |digits| ==> IsDigit(digits[i]);
    }
    assert front + ['_', tag] + digits == front + ['_'] + part;
    SplitLastOf(front, '_', part);
  }

  /** Different images never share a file name: equal names mean equal
      stem, page, index and extension. */
  lemma ImageFileNameInjective(s1: string, p1: nat, i1: nat, e1: string,
                               s2: string, p2: nat, i2: nat, e2: string)
    requires '.' !in e1 && '.' !in e2
    requires ImageFileName(s1, p1, i1, e1) == ImageFileName(s2, p2, i2, e2)
    ensures s1 == s2 && p1 == p2 && i1 == i2 && e1 == e2
  {
    ImageFileNameRoundTrip(s1, p1, i1, e1);
    ImageFileNameRoundTrip(s2, p2, i2, e2);
  }

  // ---------------------------------------------------------------------
  // PDF names
  // ---------------------------------------------------------------------

  const SourceSuffix: string := ".fdf"
  const PdfSuffix: string := ".pdf"
  const MergedPdfName: string := "merged_coupons.pdf"

  /** Python's `s.replace(".fdf", ".pdf")`: every non-overlapping occurrence,
      scanning from the left. */
  function ReplaceFdf(s: string): (r: string)
    ensures |r| == |s|
    decreases |s|
  {
    if |s| < 4 then s
    else if s[..4] == SourceSuffix then PdfSuffix + ReplaceFdf(s[4..])
    else [s[0]] + ReplaceFdf(s[1..])
  }

  /** Name of the PDF made from the document at base name `name`. */
  function PdfFileName(name: string): string {
    ReplaceFdf(name)
  }

  predicate FdfAt(s: string, i: nat) {
    i + 4 <= |s| && s[i..i + 4] == SourceSuffix
  }

  ghost predicate ContainsFdf(s: string) {
    exists i: nat :: FdfAt(s, i)
  }

  lemma ContainsFdfOfTail(s: string)
    requires |s| >= 1
    ensures ContainsFdf(s[1..]) ==> ContainsFdf(s)
  {
    if ContainsFdf(s[1..]) {
      var i: nat :| FdfAt(s[1..], i);
      assert s[1..][i..i + 4] == s[i + 1..i + 5];
      assert FdfAt(s, i + 1);
    }
  }

  /** Replacing in a name that has no ".fdf" changes nothing. */
  lemma {:induction false} ReplaceFdfAbsent(s: string)
    requires !ContainsFdf(s)
    ensures ReplaceFdf(s) == s
    decreases |s|
  {
    if |s| >= 4 {
      assert s[0..4] == s[..4];
      assert !FdfAt(s, 0);
      ContainsFdfOfTail(s);
      ReplaceFdfAbsent(s[1..]);
    }
  }

  /** A trailing ".fdf" is always replaced by ".pdf": it cannot be swallowed
      by an earlier occurrence, because ".fdf" does not overlap itself. */
  lemma {:induction false} ReplaceFdfTrailing(stem: string)
    ensures ReplaceFdf(stem + SourceSuffix) == ReplaceFdf(stem) + PdfSuffix
    decreases |stem|
  {
    var s := stem + SourceSuffix;
    if |stem| == 0 {
      assert s == SourceSuffix;
      assert s[4..] == "";
    } else if |stem| >= 4 && stem[..4] == SourceSuffix {
      assert s[..4] == SourceSuffix;
      assert s[4..] == stem[4..] + SourceSuffix;
      ReplaceFdfTrailing(stem[4..]);
    } else {
      assert s[..4] != SourceSuffix by {
        if |stem| < 4 {
          assert s[|stem|] == '.';
          assert SourceSuffix[|stem|] != '.';
        } else {
          assert s[..4] == stem[..4];
        }
      }
      assert s[1..] == stem[1..] + SourceSuffix;
      ReplaceFdfTrailing(stem[1..]);
      if |stem| < 4 {
        assert ReplaceFdf(stem[1..]) == stem[1..];
        assert [stem[0]] + stem[1..] == stem;
      }
    }
  }

  /** The usual case: "name.fdf" with no other ".fdf" becomes "name.pdf". */
  lemma PdfNameOfSource(stem: string)
    requires !ContainsFdf(stem)
    ensures PdfFileName(stem + SourceSuffix) == stem + PdfSuffix
  {
    ReplaceFdfTrailing(stem);
    ReplaceFdfAbsent(stem);
  }

  /** Every ".fdf" is replaced, not only the first or the last: character
      `i` of the result is the 'p' of a ".pdf" exactly when a ".fdf" starts
      just before it, and is unchanged otherwise. Occurrences of ".fdf"
      cannot overlap, so the left-to-right scan misses none. */
  lemma {:induction false} ReplaceFdfAt(s: string, i: nat)
    requires i < |s|
    ensures ReplaceFdf(s)[i] == if i >= 1 && FdfAt(s, i - 1) then 'p' else s[i]
    decreases |s|
  {
    if |s| < 4 {
    } else if s[..4] == SourceSuffix {
      var rest := ReplaceFdf(s[4..]);
      assert ReplaceFdf(s) == PdfSuffix + rest;
      if i >= 4 {
        ReplaceFdfAt(s[4..], i - 4);
        if i >= 5 {
          FdfAtShift(s, 4, i - 5);
        } else {
          assert s[3] == SourceSuffix[3];
        }
      } else {
        assert s[i] == SourceSuffix[i];
        if i == 1 {
          assert FdfAt(s, 0);
        } else if i >= 2 {
          assert s[i - 1] == SourceSuffix[i - 1] != '.';
          assert !FdfAt(s, i - 1) by {
            if i + 3 <= |s| {
              assert s[i - 1..i + 3][0] == s[i - 1];
            }
          }
        }
      }
    } else {
      var rest := ReplaceFdf(s[1..]);
      assert ReplaceFdf(s) == [s[0]] + rest;
      if i >= 2 {
        ReplaceFdfAt(s[1..], i - 1);
        FdfAtShift(s, 1, i - 2);
      } else if i == 1 {
        ReplaceFdfAt(s[1..], 0);
        assert s[0..4] == s[..4];
      }
    }
  }

  /** Looking for ".fdf" in a suffix is looking further along the whole. */
  lemma FdfAtShift(s: string, k: nat, j: nat)
    requires k <= |s|
    ensures FdfAt(s, k + j) <==> FdfAt(s[k..], j)
  {
    if k + j + 4 <= |s| {
      assert s[k + j..k + j + 4] == s[k..][j..j + 4];
    }
  }

  /** The merged PDF's name is also the PDF name of exactly two base names:
      `merged_coupons.fdf` and `merged_coupons.pdf`. Any other source's PDF
      is written under a different name from the merged PDF. */
  lemma MergedNameClash(name: string)
    ensures PdfFileName(name) == MergedPdfName <==> name == "merged_coupons.fdf" || name == MergedPdfName
  {
    if PdfFileName(name) == MergedPdfName {
      MergedNameSources(name);
    }
    if name == "merged_coupons.fdf" {
      assert name == "merged_coupons" + SourceSuffix;
      MergedStemHasNoFdf("merged_coupons");
      PdfNameOfSource("merged_coupons");
    }
    if name == MergedPdfName {
      MergedStemHasNoFdf(MergedPdfName);
      ReplaceFdfAbsent(MergedPdfName);
    }
  }

  lemma MergedNameSources(name: string)
    requires PdfFileName(name) == MergedPdfName
    ensures name == "merged_coupons.fdf" || name == MergedPdfName
  {
    var m := MergedPdfName;
    ReplaceFdfKeeps(name);
    assert name[9] == m[9];
    ReplaceFdfAt(name, 10);
    ReplaceFdfAt(name, 15);
    var other := if name[15] == 'p' then m else "merged_coupons.fdf";
    forall i | 0 <= i < |m| ensures name[i] == other[i] {
      if i != 10 && i != 15 {
        assert m[i] != 'p';
      } else if i == 15 && name[15] != 'p' {
        assert FdfAt(name, 14);
      }
    }
    assert name == other;
  }

  /** Characters of the result other than 'p' are the input's. */
  lemma ReplaceFdfKeeps(s: string)
    ensures forall i :: 0 <= i < |s| && ReplaceFdf(s)[i] != 'p' ==> s[i] == ReplaceFdf(s)[i]
  {
    forall i | 0 <= i < |s| && ReplaceFdf(s)[i] != 'p' ensures s[i] == ReplaceFdf(s)[i] {
      ReplaceFdfAt(s, i);
    }
  }

  /** A name whose only '.' (if any) is followed by 'p' holds no ".fdf". */
  lemma MergedStemHasNoFdf(s: string)
    requires s == "merged_coupons" || s == MergedPdfName
    ensures !ContainsFdf(s)
  {
    forall i: nat | i + 4 <= |s| ensures !FdfAt(s, i) {
      assert s[i..i + 4][0] == s[i] && s[i..i + 4][1] == s[i + 1];
      if s[i] == '.' {
        assert s[i + 1] == 'p';
      }
    }
  }
}

=== FILE: pipeline.dfy ===
/**
 The run over all source documents. Each document is opened, its images are
 extracted, filtered and (optionally) written out, a PDF is composed from the
 survivors (optionally), and the survivors are appended to a run-wide merge
 list (optionally). After the last document a merged PDF is composed when
 more than one document was found, the sources are deleted (optionally), and
 one completion notice is chosen.

 File system effects are recorded, in order, as a list of `Effect`s; an
 exception that aborts the run becomes `failure`, after which nothing more
 happens.
 */
module Pipeline {
  import opened Types
  import Extraction
  import Filter
  import Layout
  import Naming

  /** The run's settings as read from the configuration file. */
  datatype Config = Config(
    extractImages: bool,
    convertPdf: bool,
    suppressMessages: bool,
    deleteSources: bool,
    couponsPerPage: int,
    mergePdf: bool)

  /** Collaborators the pipeline calls but does not define: the content
      digest and the image re-encoder (`None` when it raises). */
  datatype Codec = Codec(fingerprint: Bytes -> Filter.Fingerprint, reencode: (Bytes, string) -> Option<Bytes>)

  /** A file found in the source folder: its path, and its pages' images, or
      `None` when the document library cannot open it. */
  datatype SourceFile = SourceFile(path: string, pages: Option<seq<seq<RawImage>>>)

  /** Something written to or removed from the file system. */
  datatype Effect =
    | WriteImage(name: string, data: Bytes)
    | WritePdf(name: string, layout: seq<seq<Layout.Placement>>)
    | WriteMergedPdf(name: string, layout: seq<seq<Layout.Placement>>)
    | DeleteSource(path: string)

  /** Errors that abort the whole run. */
  datatype RunError =
    | CannotOpen(path: string)
    | ZeroHeightImage(pdfName: string)

  // ---------------------------------------------------------------------
  // One document
  // ---------------------------------------------------------------------

  /** The images of a document that survive the filter, with a fresh seen-set:
      duplicates are only looked for within one document. */
  function AcceptedOf(pages: seq<seq<RawImage>>, codec: Codec): seq<Filter.Accepted> {
    Filter.FilterImages(Extraction.Extract(pages), {}, codec.fingerprint, codec.reencode).kept
  }

  /** The `(bytes, w, h, ext)` tuple kept for layout. */
  function ToCoupon(a: Filter.Accepted): Coupon {
    Coupon(a.stored, a.source.width, a.source.height, a.source.ext)
  }

  function Coupons(kept: seq<Filter.Accepted>): (r: seq<Coupon>)
    ensures |r| == |kept|
    ensures forall k :: 0 <= k < |kept| ==> r[k] == ToCoupon(kept[k])
  {
    Map(ToCoupon, kept)
  }

  /** File name for an accepted image of the document at `path`. */
  function ImageName(path: string, a: Filter.Accepted): string {
    Naming.ImageFileName(Naming.Stem(Naming.Basename(path)), a.source.page, a.source.index, a.source.ext)
  }

  function ImageWrites(path: string, kept: seq<Filter.Accepted>): (r: seq<Effect>)
    ensures |r| == |kept|
    ensures forall k :: 0 <= k < |kept| ==> r[k] == WriteImage(ImageName(path, kept[k]), kept[k].stored)
    ensures forall e :: e in r ==> e.WriteImage?
  {
    seq(|kept|, k requires 0 <= k < |kept| => WriteImage(ImageName(path, kept[k]), kept[k].stored))
  }

  /** What processing one document leaves behind. */
  datatype DocResult = DocResult(
    coupons: seq<Coupon>,
    effects: seq<Effect>,
    imagesWritten: bool,
    pdfWritten: bool,
    failure: Option<RunError>)

  predicate IsPdfWrite(e: Effect) {
    e.WritePdf? || e.WriteMergedPdf?
  }

  /** Processes one document: filter, write images, compose its PDF. */
  function ProcessDocument(cfg: Config, codec: Codec, file: SourceFile): (r: DocResult)
    ensures r.failure == Some(CannotOpen(file.path)) <==> file.pages.None?
    ensures file.pages.None? ==> r.effects == [] && r.coupons == []
    ensures r.imagesWritten <==> exists e :: e in r.effects && e.WriteImage?
    ensures r.pdfWritten <==> exists e :: e in r.effects && IsPdfWrite(e)
    ensures forall e :: e in r.effects ==> e.WriteImage? || e.WritePdf?
  {
    match file.pages
    case None => DocResult([], [], false, false, Some(CannotOpen(file.path)))
    case Some(pages) =>
      ProcessAcceptedWrites(cfg, file.path, AcceptedOf(pages, codec));
      ProcessAccepted(cfg, file.path, AcceptedOf(pages, codec))
  }

  /** The work done for an opened document once its images are filtered:
      images are reported written exactly when extraction is on and
      something was accepted; a PDF exactly when conversion is on and
      something was accepted; and a failure exactly when that PDF would hold
      an image of height zero. */
  function ProcessAccepted(cfg: Config, path: string, kept: seq<Filter.Accepted>): (r: DocResult)
    ensures r.coupons == Coupons(kept)
    ensures r.imagesWritten <==> cfg.extractImages && |kept| > 0
    ensures r.failure.Some? <==> cfg.convertPdf && |kept| > 0 && exists c :: c in r.coupons && c.height == 0
    ensures r.failure.Some? ==> r.failure.value.ZeroHeightImage?
    ensures r.pdfWritten <==> cfg.convertPdf && |kept| > 0 && r.failure.None?
  {
    var pdf := ComposeIf(cfg.convertPdf, Coupons(kept), cfg.couponsPerPage);
    var pdfName := Naming.PdfFileName(Naming.Basename(path));
    DocResult(Coupons(kept), AcceptedWrites(cfg, path, kept), cfg.extractImages && |kept| > 0, pdf.Pdf?,
              if pdf.PdfFailed? then Some(ZeroHeightImage(pdfName)) else None)
  }

  /** The files written for an opened document: its images, then its PDF. */
  function AcceptedWrites(cfg: Config, path: string, kept: seq<Filter.Accepted>): seq<Effect> {
    (if cfg.extractImages then ImageWrites(path, kept) else [])
    + PdfWrites(Naming.PdfFileName(Naming.Basename(path)),
                ComposeIf(cfg.convertPdf, Coupons(kept), cfg.couponsPerPage))
  }

  /** One file per accepted image, named after the document, page and
      index, comes first exactly when extraction is on; after them at most
      one more file is written, the document's PDF, named after the document
      and laid out from the accepted images; the flags record whether an
      image or a PDF was written; nothing else is written. */
  lemma ProcessAcceptedWrites(cfg: Config, path: string, kept: seq<Filter.Accepted>)
    ensures var r := ProcessAccepted(cfg, path, kept);
            cfg.extractImages ==>
              |r.effects| >= |kept| &&
              forall k :: 0 <= k < |kept| ==> r.effects[k] == WriteImage(ImageName(path, kept[k]), kept[k].stored)
    ensures var r := ProcessAccepted(cfg, path, kept);
            !cfg.extractImages ==> forall e :: e in r.effects ==> !e.WriteImage?
    ensures var r := ProcessAccepted(cfg, path, kept);
            r.imagesWritten <==> exists e :: e in r.effects && e.WriteImage?
    ensures var r := ProcessAccepted(cfg, path, kept);
            r.pdfWritten <==> exists e :: e in r.effects && IsPdfWrite(e)
    ensures var r := ProcessAccepted(cfg, path, kept);
            forall e :: e in r.effects ==> e.WriteImage? || e.WritePdf?
    ensures var r := ProcessAccepted(cfg, path, kept);
            |r.effects| == (if cfg.extractImages then |kept| else 0) + (if r.pdfWritten then 1 else 0)
    ensures var r := ProcessAccepted(cfg, path, kept);
            r.pdfWritten ==> r.effects[|r.effects| - 1].WritePdf?
    ensures var r := ProcessAccepted(cfg, path, kept);
            forall e :: e in r.effects && e.WritePdf? ==>
              && e.name == Naming.PdfFileName(Naming.Basename(path))
              && Layout.Compose(Coupons(kept), cfg.couponsPerPage) == Some(e.layout)
  {
    var writes: seq<Effect> := if cfg.extractImages then ImageWrites(path, kept) else [];
    var pdf := ComposeIf(cfg.convertPdf, Coupons(kept), cfg.couponsPerPage);
    var pdfWrites := PdfWrites(Naming.PdfFileName(Naming.Basename(path)), pdf);
    assert ProcessAccepted(cfg, path, kept).effects == writes + pdfWrites;
    ImagesThenPdf(writes, pdfWrites);
    AcceptedPdfWrite(cfg, path, kept);
  }

  /** Image writes followed by at most one PDF write: the images keep their
      places, the PDF (if any) is last, and the kinds present are exactly
      those of the two parts. */
  lemma ImagesThenPdf(images: seq<Effect>, pdfs: seq<Effect>)
    requires forall e :: e in images ==> e.WriteImage?
    requires |pdfs| <= 1 && forall e :: e in pdfs ==> e.WritePdf?
    ensures var all := images + pdfs;
            && |all| == |images| + |pdfs|
            && (forall k :: 0 <= k < |images| ==> all[k] == images[k])
            && ((exists e :: e in all && e.WriteImage?) <==> |images| > 0)
            && ((exists e :: e in all && IsPdfWrite(e)) <==> |pdfs| > 0)
            && (forall e :: e in all ==> e.WriteImage? || e.WritePdf?)
            && (|pdfs| > 0 ==> all[|all| - 1] == pdfs[0])
  {
    var all := images + pdfs;
    assert forall e :: e in all && IsPdfWrite(e) ==> e in pdfs;
    if |images| > 0 {
      assert all[0] == images[0] && images[0] in images;
    }
    if |pdfs| > 0 {
      assert all[|all| - 1] == pdfs[0] && pdfs[0] in pdfs;
      assert pdfs[0] in all && IsPdfWrite(pdfs[0]);
    }
  }

  /** The files written for an opened document number one per accepted
      image when extracting, plus one when its PDF is composed; that PDF is
      named after the document and holds the layout of its accepted images. */
  lemma AcceptedPdfWrite(cfg: Config, path: string, kept: seq<Filter.Accepted>)
    ensures var pdf := ComposeIf(cfg.convertPdf, Coupons(kept), cfg.couponsPerPage);
            |AcceptedWrites(cfg, path, kept)| == (if cfg.extractImages then |kept| else 0) + (if pdf.Pdf? then 1 else 0)
    ensures var pdf := ComposeIf(cfg.convertPdf, Coupons(kept), cfg.couponsPerPage);
            var w := AcceptedWrites(cfg, path, kept);
            pdf.Pdf? ==> w[|w| - 1] == WritePdf(Naming.PdfFileName(Naming.Basename(path)), pdf.layout)
    ensures forall e :: e in AcceptedWrites(cfg, path, kept) && e.WritePdf? ==>
              && e.name == Naming.PdfFileName(Naming.Basename(path))
              && Layout.Compose(Coupons(kept), cfg.couponsPerPage) == Some(e.layout)
  {
    var writes := if cfg.extractImages then ImageWrites(path, kept) else [];
    var pdf := ComposeIf(cfg.convertPdf, Coupons(kept), cfg.couponsPerPage);
    var pdfWrites := PdfWrites(Naming.PdfFileName(Naming.Basename(path)), pdf);
    assert AcceptedWrites(cfg, path, kept) == writes + pdfWrites;
    forall e: Effect | e in writes + pdfWrites && e.WritePdf?
      ensures && e.name == Naming.PdfFileName(Naming.Basename(path))
              && Layout.Compose(Coupons(kept), cfg.couponsPerPage) == Some(e.layout)
    {
      assert e !in writes;
      assert e in pdfWrites;
      ComposeIfLayout(cfg.convertPdf, Coupons(kept), cfg.couponsPerPage);
    }
  }

  /** Whether a PDF is composed, and its layout. */
  datatype PdfOutcome = NoPdf | PdfFailed | Pdf(layout: seq<seq<Layout.Placement>>)

  /** A PDF is composed only when it is `wanted` and there is something to
      put in it; composing fails on an image of height zero. */
  function ComposeIf(wanted: bool, coupons: seq<Coupon>, couponsPerPage: int): (o: PdfOutcome)
    ensures o.NoPdf? <==> !wanted || |coupons| == 0
    ensures o.PdfFailed? <==> wanted && |coupons| > 0 && exists c :: c in coupons && c.height == 0
  {
    if wanted && |coupons| > 0 then
      match Layout.Compose(coupons, couponsPerPage)
      case None => PdfFailed
      case Some(layout) => Pdf(layout)
    else NoPdf
  }

  lemma ComposeIfLayout(wanted: bool, coupons: seq<Coupon>, couponsPerPage: int)
    requires ComposeIf(wanted, coupons, couponsPerPage).Pdf?
    ensures Layout.Compose(coupons, couponsPerPage) == Some(ComposeIf(wanted, coupons, couponsPerPage).layout)
  {
  }

  /** The per-document PDF written for an outcome: one file when composed. */
  function PdfWrites(name: string, pdf: PdfOutcome): (r: seq<Effect>)
    ensures |r| <= 1 && (|r| == 1 <==> pdf.Pdf?)
    ensures forall e :: e in r ==> e.WritePdf? && e.name == name && pdf.Pdf? && e.layout == pdf.layout
  {
    if pdf.Pdf? then [WritePdf(name, pdf.layout)] else []
  }

  /** The merged PDF written for an outcome: one file when composed. */
  function MergedWrites(pdf: PdfOutcome): (r: seq<Effect>)
    ensures |r| <= 1 && (|r| == 1 <==> pdf.Pdf?)
    ensures forall e :: e in r ==> e.WriteMergedPdf? && e.name == Naming.MergedPdfName && pdf.Pdf? && e.layout == pdf.layout
  {
    if pdf.Pdf? then [WriteMergedPdf(Naming.MergedPdfName, pdf.layout)] else []
  }

  /** The filter loop as the program writes it: pages in order, images of a
      page in order, a set of digests shared by the whole document. */
  method ScanDocument(pages: seq<seq<RawImage>>, codec: Codec) returns (kept: seq<Filter.Accepted>)
    ensures kept == AcceptedOf(pages, codec)
  {
    var seen: set<Filter.Fingerprint> := {};
    kept := [];
    var p := 0;
    while p < |pages|
      invariant 0 <= p <= |pages|
      invariant Filter.FilterImages(Extraction.Extract(pages[..p]), {}, codec.fingerprint, codec.reencode)
                == Filter.FilterState(kept, seen)
    {
      ExtractStep(pages, p);
      kept, seen := ScanPage(Extraction.Extract(pages[..p]), p, pages[p], codec, kept, seen);
      p := p + 1;
    }
    assert pages[..|pages|] == pages;
  }

  /** The inner loop over the images of page `p`, continuing the filter
      state reached on the earlier pages. */
  method ScanPage(before: seq<SourceImage>, p: nat, imgs: seq<RawImage>, codec: Codec,
                  kept0: seq<Filter.Accepted>, seen0: set<Filter.Fingerprint>)
    returns (kept: seq<Filter.Accepted>, seen: set<Filter.Fingerprint>)
    requires Filter.FilterImages(before, {}, codec.fingerprint, codec.reencode) == Filter.FilterState(kept0, seen0)
    ensures Filter.FilterImages(before + Extraction.PageImages(p, imgs), {}, codec.fingerprint, codec.reencode)
            == Filter.FilterState(kept, seen)
  {
    kept, seen := kept0, seen0;
    var i := 0;
    assert before + Extraction.PageImages(p, imgs[..0]) == before;
    while i < |imgs|
      invariant 0 <= i <= |imgs|
      invariant Filter.FilterImages(before + Extraction.PageImages(p, imgs[..i]), {}, codec.fingerprint, codec.reencode)
                == Filter.FilterState(kept, seen)
    {
      var img := SourceImage(imgs[i].bytes, imgs[i].width, imgs[i].height, imgs[i].ext, p, i);
      ghost var stream := before + Extraction.PageImages(p, imgs[..i]);
      PageImagesStep(p, imgs, i);
      assert before + Extraction.PageImages(p, imgs[..i + 1]) == stream + [img];
      Filter.FilterStep(stream, img, {}, codec.fingerprint, codec.reencode);
      if |img.bytes| >= Filter.MinImageBytes {
        var digest := codec.fingerprint(img.bytes);
        if digest !in seen {
          seen := seen + {digest};
          kept := kept + [Filter.Accept(img, codec.reencode)];
        }
      }
      i := i + 1;
    }
    assert imgs[..i] == imgs;
  }

  lemma PageImagesStep(p: nat, imgs: seq<RawImage>, i: nat)
    requires i < |imgs|
    ensures Extraction.PageImages(p, imgs[..i + 1])
            == Extraction.PageImages(p, imgs[..i]) + [SourceImage(imgs[i].bytes, imgs[i].width, imgs[i].height, imgs[i].ext, p, i)]
  {
  }

  lemma ExtractStep(pages: seq<seq<RawImage>>, p: nat)
    requires p < |pages|
    ensures Extraction.Extract(pages[..p + 1]) == Extraction.Extract(pages[..p]) + Extraction.PageImages(p, pages[p])
  {
    assert pages[..p + 1][..p] == pages[..p];
  }

  /** Accepted images keep the document's order: by page, then by position on
      the page. */
  lemma AcceptedInDocumentOrder(pages: seq<seq<RawImage>>, codec: Codec)
    ensures var kept := AcceptedOf(pages, codec);
            forall a, b :: 0 <= a < b < |kept| ==> Extraction.PositionBefore(kept[a].source, kept[b].source)
  {
    var stream := Extraction.Extract(pages);
    var kept := AcceptedOf(pages, codec);
    Filter.FilterKeepsSubsequence(stream, {}, codec.fingerprint, codec.reencode);
    SubsequenceKeepsOrder(Filter.Sources(kept), stream);
  }

  /** A subsequence of a list in strictly increasing position order is in
      strictly increasing position order. */
  lemma {:induction false} SubsequenceKeepsOrder(a: seq<SourceImage>, b: seq<SourceImage>)
    requires Filter.IsSubsequence(a, b)
    requires forall i, j :: 0 <= i < j < |b| ==> Extraction.PositionBefore(b[i], b[j])
    ensures forall i, j :: 0 <= i < j < |a| ==> Extraction.PositionBefore(a[i], a[j])
    decreases |b|
  {
    if |a| > 0 {
      var b' := b[..|b| - 1];
      if a[|a| - 1] == b[|b| - 1] && Filter.IsSubsequence(a[..|a| - 1], b') {
        var a' := a[..|a| - 1];
        SubsequenceKeepsOrder(a', b');
        forall i, j | 0 <= i < j < |a| ensures Extraction.PositionBefore(a[i], a[j]) {
          if j == |a| - 1 {
            SubsequenceMembers(a', b', i);
            var m :| 0 <= m < |b'| && b'[m] == a'[i];
            assert b[m] == a[i];
          } else {
            assert a[i] == a'[i] && a[j] == a'[j];
          }
        }
      } else {
        SubsequenceKeepsOrder(a, b');
      }
    }
  }

  lemma {:induction false} SubsequenceMembers(a: seq<SourceImage>, b: seq<SourceImage>, i: nat)
    requires Filter.IsSubsequence(a, b) && i < |a|
    ensures exists m :: 0 <= m < |b| && b[m] == a[i]
    decreases |b|
  {
    var b' := b[..|b| - 1];
    if a[|a| - 1] == b[|b| - 1] && Filter.IsSubsequence(a[..|a| - 1], b') {
      if i == |a| - 1 {
        assert b[|b| - 1] == a[i];
      } else {
        SubsequenceMembers(a[..|a| - 1], b', i);
        var m :| 0 <= m < |b'| && b'[m] == a[..|a| - 1][i];
        assert b[m] == a[i];
      }
    } else {
      SubsequenceMembers(a, b', i);
      var m :| 0 <= m < |b'| && b'[m] == a[i];
      assert b[m] == a[i];
    }
  }

  /** Two accepted images of one document are never written to the same
      file, provided format tags contain no '.' (they are short names such
      as "png" or "jpeg"). */
  lemma DistinctImageNames(path: string, pages: seq<seq<RawImage>>, codec: Codec, a: nat, b: nat)
    requires forall p, i :: 0 <= p < |pages| && 0 <= i < |pages[p]| ==> '.' !in pages[p][i].ext
    requires a < b < |AcceptedOf(pages, codec)|
    ensures var kept := AcceptedOf(pages, codec);
            ImageName(path, kept[a]) != ImageName(path, kept[b])
  {
    var kept := AcceptedOf(pages, codec);
    var stream := Extraction.Extract(pages);
    AcceptedInDocumentOrder(pages, codec);
    Filter.FilterKeepsSubsequence(stream, {}, codec.fingerprint, codec.reencode);
    assert Extraction.PositionBefore(kept[a].source, kept[b].source);
    SubsequenceMembers(Filter.Sources(kept), stream, a);
    SubsequenceMembers(Filter.Sources(kept), stream, b);
    assert Extraction.Locates(pages, kept[a].source) by {
      var m :| 0 <= m < |stream| && stream[m] == kept[a].source;
    }
    assert Extraction.Locates(pages, kept[b].source) by {
      var m :| 0 <= m < |stream| && stream[m] == kept[b].source;
    }
    var sa := kept[a].source;
    var sb := kept[b].source;
    assert sa.ext == pages[sa.page][sa.index].ext;
    assert sb.ext == pages[sb.page][sb.index].ext;
    if ImageName(path, kept[a]) == ImageName(path, kept[b]) {
      var stem := Naming.Stem(Naming.Basename(path));
      Naming.ImageFileNameInjective(stem, sa.page, sa.index, sa.ext, stem, sb.page, sb.index, sb.ext);
    }
  }

  // ---------------------------------------------------------------------
  // The run
  // ---------------------------------------------------------------------

  /** The loop's state after a prefix of the source files. */
  datatype LoopState = LoopState(
    effects: seq<Effect>,
    imagesExtracted: bool,
    pdfCreated: bool,
    merged: seq<Coupon>,
    toDelete: seq<string>,
    failure: Option<RunError>)

  /** The per-document loop; once a document fails, later ones are not
      touched. */
  function RunLoop(cfg: Config, codec: Codec, files: seq<SourceFile>): (st: LoopState)
    ensures st.imagesExtracted <==> exists e :: e in st.effects && e.WriteImage?
    ensures st.pdfCreated <==> exists e :: e in st.effects && IsPdfWrite(e)
    ensures forall e :: e in st.effects ==> e.WriteImage? || e.WritePdf?
    ensures st.failure.None? ==> forall f :: f in files ==> f.pages.Some?
    decreases |files|
  {
    if |files| == 0 then LoopState([], false, false, [], [], None)
    else
      var init := files[..|files| - 1];
      var file := files[|files| - 1];
      var st := RunLoop(cfg, codec, init);
      if st.failure.Some? then st
      else
        var d := ProcessDocument(cfg, codec, file);
        assert forall f :: f in files ==> f in init || f == file;
        LoopState(
          st.effects + d.effects,
          st.imagesExtracted || d.imagesWritten,
          st.pdfCreated || d.pdfWritten,
          if d.failure.None? && cfg.mergePdf then st.merged + d.coupons else st.merged,
          if d.failure.None? && cfg.deleteSources then st.toDelete + [file.path] else st.toDelete,
          d.failure)
  }

  /** The coupons a document contributes: its accepted images, nothing if it
      cannot be opened. */
  function DocumentCoupons(codec: Codec, file: SourceFile): seq<Coupon> {
    match file.pages
    case None => []
    case Some(pages) => Coupons(AcceptedOf(pages, codec))
  }

  /** A document stops the run: it cannot be opened, or its PDF is wanted
      and one of its accepted images has height zero. */
  predicate DocumentFails(cfg: Config, codec: Codec, file: SourceFile) {
    file.pages.None? || (cfg.convertPdf && exists c :: c in DocumentCoupons(codec, file) && c.height == 0)
  }

  /** Processing a document fails exactly when it is one that stops the run. */
  lemma ProcessDocumentFails(cfg: Config, codec: Codec, file: SourceFile)
    ensures ProcessDocument(cfg, codec, file).failure.Some? <==> DocumentFails(cfg, codec, file)
  {
    if file.pages.Some? {
      var r := ProcessDocument(cfg, codec, file);
      assert r.coupons == DocumentCoupons(codec, file);
      if |r.coupons| == 0 {
        assert !exists c :: c in r.coupons && c.height == 0;
      }
    }
  }

  /** The loop ends in failure exactly when some document stops the run. */
  lemma {:induction false} LoopFailure(cfg: Config, codec: Codec, files: seq<SourceFile>)
    ensures RunLoop(cfg, codec, files).failure.Some?
            <==> exists f :: f in files && DocumentFails(cfg, codec, f)
    decreases |files|
  {
    if |files| > 0 {
      var init := files[..|files| - 1];
      var file := files[|files| - 1];
      assert files == init + [file];
      LoopFailure(cfg, codec, init);
      ProcessDocumentFails(cfg, codec, file);
      assert forall f :: f in files <==> f in init || f == file;
    }
  }

  /** Reference for the merge list: every document's coupons, in document
      order, with no deduplication across documents. */
  function AllCoupons(codec: Codec, files: seq<SourceFile>): seq<Coupon> {
    Layout.Flatten(Map(file => DocumentCoupons(codec, file), files))
  }


  function Paths(files: seq<SourceFile>): seq<string> {
    Map((file: SourceFile) => file.path, files)
  }

  /** When the loop completes, the merge list is the concatenation of the
      documents' accepted images in document order (empty when merging is
      off): nothing is deduplicated across documents. */
  lemma {:induction false} LoopMerges(cfg: Config, codec: Codec, files: seq<SourceFile>)
    requires RunLoop(cfg, codec, files).failure.None?
    ensures RunLoop(cfg, codec, files).merged == if cfg.mergePdf then AllCoupons(codec, files) else []
    decreases |files|
  {
    if |files| > 0 {
      var init := files[..|files| - 1];
      var file := files[|files| - 1];
      LoopMerges(cfg, codec, init);
      var f := file => DocumentCoupons(codec, file);
      MapSnoc(f, files);
      Layout.FlattenSnoc(Map(f, init), f(file));
    }
  }

  /** Reference for the loop's writes: each document's own writes, in file
      order. */
  function AllEffects(cfg: Config, codec: Codec, files: seq<SourceFile>): seq<Effect> {
    Layout.Flatten(Map(file => ProcessDocument(cfg, codec, file).effects, files))
  }

  /** When the loop completes, what it wrote is exactly every document's
      image files and PDF, document after document: no document's writes
      are lost, repeated or reordered. */
  lemma {:induction false} RunLoopEffects(cfg: Config, codec: Codec, files: seq<SourceFile>)
    requires RunLoop(cfg, codec, files).failure.None?
    ensures RunLoop(cfg, codec, files).effects == AllEffects(cfg, codec, files)
    decreases |files|
  {
    if |files| > 0 {
      var init := files[..|files| - 1];
      var file := files[|files| - 1];
      RunLoopEffects(cfg, codec, init);
      var f := file => ProcessDocument(cfg, codec, file).effects;
      MapSnoc(f, files);
      Layout.FlattenSnoc(Map(f, init), f(file));
    }
  }

  /** A document's PDF is written under the document's own PDF name. */
  lemma DocumentPdfName(cfg: Config, codec: Codec, file: SourceFile)
    ensures forall e :: e in ProcessDocument(cfg, codec, file).effects && e.WritePdf? ==>
              e.name == Naming.PdfFileName(Naming.Basename(file.path))
  {
    if file.pages.Some? {
      var kept := AcceptedOf(file.pages.value, codec);
      ProcessAcceptedWrites(cfg, file.path, kept);
      assert ProcessDocument(cfg, codec, file) == ProcessAccepted(cfg, file.path, kept);
    }
  }

  /** Every per-document PDF the loop writes is named after one of the
      source files. */
  lemma {:induction false} LoopPdfNames(cfg: Config, codec: Codec, files: seq<SourceFile>)
    ensures forall e :: e in RunLoop(cfg, codec, files).effects && e.WritePdf? ==>
              exists file :: file in files && e.name == Naming.PdfFileName(Naming.Basename(file.path))
    decreases |files|
  {
    if |files| > 0 {
      var init := files[..|files| - 1];
      var file := files[|files| - 1];
      LoopPdfNames(cfg, codec, init);
      DocumentPdfName(cfg, codec, file);
      assert forall f :: f in init ==> f in files;
    }
  }

  /** When the loop completes, every source is queued for deletion, in
      order (none when deleting is off). */
  lemma {:induction false} LoopQueuesDeletions(cfg: Config, codec: Codec, files: seq<SourceFile>)
    requires RunLoop(cfg, codec, files).failure.None?
    ensures RunLoop(cfg, codec, files).toDelete == if cfg.deleteSources then Paths(files) else []
    decreases |files|
  {
    if |files| > 0 {
      var init := files[..|files| - 1];
      LoopQueuesDeletions(cfg, codec, init);
      MapSnoc((file: SourceFile) => file.path, files);
    }
  }

  /** The one notice shown at the end of the run. */
  datatype Notice =
    | NoFilesFound
    | ExtractedSuccessfully
    | NothingProcessable
    | CriticalError(error: RunError)

  /** The text of a completion notice. */
  function NoticeText(n: Notice): string {
    match n
    case NoFilesFound => "No FDF files found in source directory"
    case ExtractedSuccessfully => "Extracted successfully!"
    case NothingProcessable => "No processable images found"
    case CriticalError(_) => "Critical error"
  }

  /** Completion notice of a run that did not abort. "No files" is shown
      even when notices are suppressed. */
  function CompletionNotice(fileCount: nat, extracted: bool, created: bool, suppress: bool): (n: Option<Notice>)
    ensures fileCount == 0 <==> n == Some(NoFilesFound)
    ensures fileCount > 0 && suppress ==> n.None?
    ensures fileCount > 0 && !suppress ==> n.Some? && (n.value == ExtractedSuccessfully <==> extracted || created)
    ensures fileCount > 0 && !suppress && !(extracted || created) ==> n == Some(NothingProcessable)
  {
    if fileCount == 0 then Some(NoFilesFound)
    else if suppress then None
    else if extracted || created then Some(ExtractedSuccessfully)
    else Some(NothingProcessable)
  }

  /** The message shown when a run completes: "no files" whenever none were
      found, otherwise (unless suppressed) success or "no processable
      images" according to whether anything was written. */
  lemma CompletionNoticeText(fileCount: nat, extracted: bool, created: bool, suppress: bool)
    requires fileCount == 0 || !suppress
    ensures var n := CompletionNotice(fileCount, extracted, created, suppress);
            && n.Some?
            && NoticeText(n.value)
               == if fileCount == 0 then "No FDF files found in source directory"
                  else if extracted || created then "Extracted successfully!"
                  else "No processable images found"
  {
  }

  /** Outcome of a whole run. */
  datatype RunResult = RunResult(effects: seq<Effect>, failure: Option<RunError>, notice: Option<Notice>)

  function Deletions(paths: seq<string>): (r: seq<Effect>)
    ensures |r| == |paths|
    ensures forall i :: 0 <= i < |paths| ==> r[i] == DeleteSource(paths[i])
  {
    Map((path: string) => DeleteSource(path), paths)
  }

  function Aborted(cfg: Config, effects: seq<Effect>, e: RunError): RunResult {
    RunResult(effects, Some(e), if cfg.suppressMessages then None else Some(CriticalError(e)))
  }

  /** What follows the loop over `fileCount` sources: the merged PDF, the
      deferred deletions and the completion notice. */
  function Finish(cfg: Config, fileCount: nat, st: LoopState): RunResult {
    if st.failure.Some? then Aborted(cfg, st.effects, st.failure.value)
    else
      var merge := ComposeIf(cfg.mergePdf && fileCount > 1, st.merged, cfg.couponsPerPage);
      if merge.PdfFailed? then Aborted(cfg, st.effects, ZeroHeightImage(Naming.MergedPdfName))
      else
        var deletions := if cfg.deleteSources && |st.toDelete| > 0 then Deletions(st.toDelete) else [];
        RunResult(st.effects + MergedWrites(merge) + deletions, None,
                  CompletionNotice(fileCount, st.imagesExtracted, st.pdfCreated || merge.Pdf?, cfg.suppressMessages))
  }

  /** The whole run over the files found in the source folder. */
  function Run(cfg: Config, codec: Codec, files: seq<SourceFile>): RunResult {
    Finish(cfg, |files|, RunLoop(cfg, codec, files))
  }

  // ---------------------------------------------------------------------
  // Properties of the run
  // ---------------------------------------------------------------------

  /** The merged-PDF outcome once the loop has completed. */
  function FinishMergeOutcome(cfg: Config, fileCount: nat, st: LoopState): PdfOutcome {
    ComposeIf(cfg.mergePdf && fileCount > 1, st.merged, cfg.couponsPerPage)
  }

  /** A run that completes has no failing document and no failing merge, and
      writes the loop's files, then the merged PDF, then the removals. */
  lemma FinishCompleted(cfg: Config, fileCount: nat, st: LoopState)
    requires Finish(cfg, fileCount, st).failure.None?
    ensures st.failure.None? && !FinishMergeOutcome(cfg, fileCount, st).PdfFailed?
    ensures Finish(cfg, fileCount, st).effects
            == st.effects + MergedWrites(FinishMergeOutcome(cfg, fileCount, st))
               + Deletions(if cfg.deleteSources then st.toDelete else [])
    ensures Finish(cfg, fileCount, st).notice
            == CompletionNotice(fileCount, st.imagesExtracted,
                                st.pdfCreated || FinishMergeOutcome(cfg, fileCount, st).Pdf?, cfg.suppressMessages)
  {
    assert Deletions([]) == [];
  }

  /** An aborted run writes nothing after the loop. */
  lemma FinishAborted(cfg: Config, fileCount: nat, st: LoopState)
    requires Finish(cfg, fileCount, st).failure.Some?
    ensures Finish(cfg, fileCount, st).effects == st.effects
  {
  }

  /** The loop stops at the first failing document: sources after it are
      neither processed nor queued, whatever they hold. */
  lemma {:induction false} LoopStopsAtFailure(cfg: Config, codec: Codec, files: seq<SourceFile>, more: seq<SourceFile>)
    requires RunLoop(cfg, codec, files).failure.Some?
    ensures RunLoop(cfg, codec, files + more) == RunLoop(cfg, codec, files)
    decreases |more|
  {
    if |more| == 0 {
      assert files + more == files;
    } else {
      var all := files + more;
      var init := files + more[..|more| - 1];
      assert all[..|all| - 1] == init;
      LoopStopsAtFailure(cfg, codec, files, more[..|more| - 1]);
      assert RunLoop(cfg, codec, init).failure.Some?;
    }
  }

  /** Once a prefix of the sources fails, the whole run writes exactly what
      the loop wrote up to that point and reports that failure. */
  lemma RunStopsAtFailure(cfg: Config, codec: Codec, files: seq<SourceFile>, more: seq<SourceFile>)
    requires RunLoop(cfg, codec, files).failure.Some?
    ensures Run(cfg, codec, files + more).effects == RunLoop(cfg, codec, files).effects
    ensures Run(cfg, codec, files + more).failure == RunLoop(cfg, codec, files).failure
  {
    LoopStopsAtFailure(cfg, codec, files, more);
  }

  /** After the loop, removals come after every write: the queued paths are
      removed in order when the run completes and deleting is on, and
      nothing is removed otherwise. */
  lemma FinishDefersDeletion(cfg: Config, fileCount: nat, st: LoopState)
    requires forall e :: e in st.effects ==> e.WriteImage? || e.WritePdf?
    ensures var r := Finish(cfg, fileCount, st);
            var queued := if r.failure.None? && cfg.deleteSources then st.toDelete else [];
            && |queued| <= |r.effects|
            && (forall i :: 0 <= i < |r.effects| - |queued| ==> !r.effects[i].DeleteSource?)
            && r.effects[|r.effects| - |queued|..] == Deletions(queued)
  {
    var r := Finish(cfg, fileCount, st);
    if r.failure.None? {
      var written := st.effects + MergedWrites(FinishMergeOutcome(cfg, fileCount, st));
      FinishCompleted(cfg, fileCount, st);
      DeletionsLast(written, if cfg.deleteSources then st.toDelete else []);
    } else {
      FinishAborted(cfg, fileCount, st);
      DeletionsLast(st.effects, []);
    }
  }

  /** Removals appended after writes form exactly the suffix of the list. */
  lemma DeletionsLast(written: seq<Effect>, queued: seq<string>)
    requires forall e :: e in written ==> !e.DeleteSource?
    ensures var all := written + Deletions(queued);
            && |all| - |queued| == |written|
            && (forall i :: 0 <= i < |written| ==> !all[i].DeleteSource?)
            && all[|written|..] == Deletions(queued)
  {
    var all := written + Deletions(queued);
    assert forall i :: 0 <= i < |written| ==> all[i] == written[i] && written[i] in written;
  }

  /** Deletion is deferred: every removal comes after every write. A run
      that completes removes exactly the sources, in order, when deleting is
      on; an aborted run removes nothing. */
  lemma RunDefersDeletion(cfg: Config, codec: Codec, files: seq<SourceFile>)
    ensures var r := Run(cfg, codec, files);
            var n := if r.failure.None? && cfg.deleteSources then |files| else 0;
            && n <= |r.effects|
            && (forall i :: 0 <= i < |r.effects| - n ==> !r.effects[i].DeleteSource?)
            && r.effects[|r.effects| - n..] == Deletions(if n > 0 then Paths(files) else [])
  {
    var st := RunLoop(cfg, codec, files);
    FinishDefersDeletion(cfg, |files|, st);
    if st.failure.None? {
      LoopQueuesDeletions(cfg, codec, files);
    }
  }

  /** After the loop, the merged PDF is written exactly when merging is on,
      there was more than one source, the merge list is non-empty and
      nothing failed. */
  lemma FinishMerge(cfg: Config, fileCount: nat, st: LoopState)
    requires forall e :: e in st.effects ==> e.WriteImage? || e.WritePdf?
    ensures var r := Finish(cfg, fileCount, st);
            (exists e :: e in r.effects && e.WriteMergedPdf?)
            <==> r.failure.None? && cfg.mergePdf && fileCount > 1 && |st.merged| > 0
  {
    var r := Finish(cfg, fileCount, st);
    if r.failure.None? {
      FinishCompleted(cfg, fileCount, st);
      var merge := FinishMergeOutcome(cfg, fileCount, st);
      var extra := MergedWrites(merge);
      var deletions := Deletions(if cfg.deleteSources then st.toDelete else []);
      assert r.effects == st.effects + extra + deletions;
      assert forall e :: e in deletions ==> e.DeleteSource?;
      assert merge.Pdf? ==> extra[0] in r.effects;
    } else {
      FinishAborted(cfg, fileCount, st);
    }
  }

  /** After the loop, a merged PDF lays out the merge list. */
  lemma FinishMergeLayout(cfg: Config, fileCount: nat, st: LoopState)
    requires forall e :: e in st.effects ==> e.WriteImage? || e.WritePdf?
    ensures var r := Finish(cfg, fileCount, st);
            forall e :: e in r.effects && e.WriteMergedPdf? ==>
              e.name == Naming.MergedPdfName && Layout.Compose(st.merged, cfg.couponsPerPage) == Some(e.layout)
  {
    var r := Finish(cfg, fileCount, st);
    if r.failure.None? {
      FinishCompleted(cfg, fileCount, st);
      var merge := FinishMergeOutcome(cfg, fileCount, st);
      var deletions := Deletions(if cfg.deleteSources then st.toDelete else []);
      assert r.effects == st.effects + MergedWrites(merge) + deletions;
      assert forall e :: e in deletions ==> e.DeleteSource?;
      if merge.Pdf? {
        ComposeIfLayout(cfg.mergePdf && fileCount > 1, st.merged, cfg.couponsPerPage);
      }
    } else {
      FinishAborted(cfg, fileCount, st);
    }
  }

  /** The merged PDF is written exactly when merging is on, more than one
      source was found, at least one image was accepted across all of them,
      and nothing failed; it lays out every document's accepted images in
      document order, with no deduplication across documents. */
  lemma RunMerge(cfg: Config, codec: Codec, files: seq<SourceFile>)
    ensures var r := Run(cfg, codec, files);
            (exists e :: e in r.effects && e.WriteMergedPdf?)
            <==> r.failure.None? && cfg.mergePdf && |files| > 1 && |AllCoupons(codec, files)| > 0
    ensures var r := Run(cfg, codec, files);
            forall e :: e in r.effects && e.WriteMergedPdf? ==>
              e.name == Naming.MergedPdfName && Layout.Compose(AllCoupons(codec, files), cfg.couponsPerPage) == Some(e.layout)
  {
    var st := RunLoop(cfg, codec, files);
    FinishMerge(cfg, |files|, st);
    FinishMergeLayout(cfg, |files|, st);
    if st.failure.None? {
      LoopMerges(cfg, codec, files);
    }
  }

  /** After the loop only the merged PDF and removals are added: every
      per-document PDF of the run was written by the loop. */
  lemma FinishKeepsPdfs(cfg: Config, fileCount: nat, st: LoopState)
    ensures forall e :: e in Finish(cfg, fileCount, st).effects && e.WritePdf? ==> e in st.effects
  {
    if Finish(cfg, fileCount, st).failure.None? {
      FinishCompleted(cfg, fileCount, st);
      var extra := MergedWrites(FinishMergeOutcome(cfg, fileCount, st));
      var deletions := Deletions(if cfg.deleteSources then st.toDelete else []);
      assert forall e: Effect :: e in extra + deletions ==> !e.WritePdf?;
    } else {
      FinishAborted(cfg, fileCount, st);
    }
  }

  /** `merged_coupons.pdf` goes to the same folder as the per-document
      PDFs. Unless a source is itself named `merged_coupons.fdf` (or
      `merged_coupons.pdf`), no per-document PDF of the run shares the
      merged PDF's name, so the merged PDF replaces none of them. */
  lemma RunPdfNamesDistinct(cfg: Config, codec: Codec, files: seq<SourceFile>)
    requires forall file :: file in files ==>
               Naming.Basename(file.path) != "merged_coupons.fdf" && Naming.Basename(file.path) != Naming.MergedPdfName
    ensures var r := Run(cfg, codec, files);
            forall e, m :: e in r.effects && m in r.effects && e.WritePdf? && m.WriteMergedPdf? ==> e.name != m.name
  {
    var st := RunLoop(cfg, codec, files);
    FinishMergeLayout(cfg, |files|, st);
    FinishKeepsPdfs(cfg, |files|, st);
    LoopPdfNames(cfg, codec, files);
    forall file | file in files ensures Naming.PdfFileName(Naming.Basename(file.path)) != Naming.MergedPdfName {
      Naming.MergedNameClash(Naming.Basename(file.path));
    }
  }

  /** After the loop, the notice follows the flags, and the flags record
      whether any image or PDF was written. */
  lemma FinishNotice(cfg: Config, fileCount: nat, st: LoopState)
    requires forall e :: e in st.effects ==> e.WriteImage? || e.WritePdf?
    requires st.imagesExtracted <==> exists e :: e in st.effects && e.WriteImage?
    requires st.pdfCreated <==> exists e :: e in st.effects && IsPdfWrite(e)
    ensures var r := Finish(cfg, fileCount, st);
            r.failure.Some? ==> r.notice == if cfg.suppressMessages then None else Some(CriticalError(r.failure.value))
    ensures var r := Finish(cfg, fileCount, st);
            r.failure.None? ==>
              r.notice == CompletionNotice(fileCount, false, exists e :: e in r.effects && (e.WriteImage? || IsPdfWrite(e)),
                                           cfg.suppressMessages)
  {
    var r := Finish(cfg, fileCount, st);
    if r.failure.None? {
      FinishCompleted(cfg, fileCount, st);
      var merge := FinishMergeOutcome(cfg, fileCount, st);
      var extra := MergedWrites(merge);
      var queued := if cfg.deleteSources then st.toDelete else [];
      assert forall e :: e in Deletions(queued) ==> e.DeleteSource?;
      assert merge.Pdf? ==> extra[0] in r.effects;
    }
  }

  /** The single notice of a run: "no files" whenever the folder held no
      source, even when notices are suppressed; on an abort the error, unless
      suppressed; otherwise, unless suppressed, success exactly when some
      image or PDF was written. */
  lemma RunNotice(cfg: Config, codec: Codec, files: seq<SourceFile>)
    ensures |files| == 0 ==> Run(cfg, codec, files) == RunResult([], None, Some(NoFilesFound))
    ensures var r := Run(cfg, codec, files);
            r.failure.Some? ==> r.notice == if cfg.suppressMessages then None else Some(CriticalError(r.failure.value))
    ensures var r := Run(cfg, codec, files);
            r.failure.None? && |files| > 0 && cfg.suppressMessages ==> r.notice.None?
    ensures var r := Run(cfg, codec, files);
            r.failure.None? && |files| > 0 && !cfg.suppressMessages ==>
              r.notice == if exists e :: e in r.effects && (e.WriteImage? || IsPdfWrite(e))
                          then Some(ExtractedSuccessfully) else Some(NothingProcessable)
  {
    FinishNotice(cfg, |files|, RunLoop(cfg, codec, files));
  }

  /** After the loop, the run fails exactly when the loop failed or the
      merged PDF is due and would hold an image of height zero. */
  lemma FinishFails(cfg: Config, fileCount: nat, st: LoopState)
    ensures Finish(cfg, fileCount, st).failure.Some?
            <==> st.failure.Some? || (cfg.mergePdf && fileCount > 1 && exists c :: c in st.merged && c.height == 0)
  {
    if st.failure.None? && cfg.mergePdf && fileCount > 1 && exists c :: c in st.merged && c.height == 0 {
      assert |st.merged| > 0;
    }
  }

  /** A run aborts exactly when some document stops it (it cannot be opened,
      or its own PDF would hold an image of height zero), or when the merged
      PDF is due and some accepted image of any document has height zero. */
  lemma RunFails(cfg: Config, codec: Codec, files: seq<SourceFile>)
    ensures Run(cfg, codec, files).failure.Some?
            <==> || (exists f :: f in files && DocumentFails(cfg, codec, f))
                 || (cfg.mergePdf && |files| > 1 && exists c :: c in AllCoupons(codec, files) && c.height == 0)
  {
    var st := RunLoop(cfg, codec, files);
    LoopFailure(cfg, codec, files);
    FinishFails(cfg, |files|, st);
    if st.failure.None? {
      LoopMerges(cfg, codec, files);
    }
  }

  /** A source the document library cannot open aborts the whole run. */
  lemma UnreadableSourceAborts(cfg: Config, codec: Codec, files: seq<SourceFile>, k: nat)
    requires k < |files| && files[k].pages.None?
    ensures Run(cfg, codec, files).failure.Some?
    ensures Run(cfg, codec, files).effects == RunLoop(cfg, codec, files[..k]).effects
    ensures RunLoop(cfg, codec, files[..k]).failure.None? ==>
              Run(cfg, codec, files).failure == Some(CannotOpen(files[k].path))
  {
    var upTo := files[..k + 1];
    assert upTo[..|upTo| - 1] == files[..k] && upTo[|upTo| - 1] == files[k];
    assert RunLoop(cfg, codec, upTo).effects == RunLoop(cfg, codec, files[..k]).effects;
    assert files == upTo + files[k + 1..];
    RunStopsAtFailure(cfg, codec, upTo, files[k + 1..]);
  }


  // ---------------------------------------------------------------------
  // Worked scenarios
  // ---------------------------------------------------------------------

  /** A one-page document holding a 512-byte image, a 25600-byte image and a
      repeat of the latter's payload keeps only the middle image. */
  lemma SmallThenRepeatKeepsOne(codec: Codec, small: Bytes, big: Bytes, first: RawImage, second: RawImage, third: RawImage)
    requires |small| == 512 && |big| == 25600
    requires first.bytes == small && second.bytes == big && third.bytes == big
    ensures AcceptedOf([[first, second, third]], codec)
            == [Filter.Accept(SourceImage(big, second.width, second.height, second.ext, 0, 1), codec.reencode)]
  {
    var stream := Extraction.PageImages(0, [first, second, third]);
    ExtractOnePage([first, second, third]);
    assert stream == [stream[0], stream[1], stream[2]];
    assert stream[1] == SourceImage(big, second.width, second.height, second.ext, 0, 1);
    assert |stream[0].bytes| == 512;
    Filter.SmallThenRepeat(stream[0], stream[1], stream[2], codec.fingerprint, codec.reencode);
  }

  lemma ExtractOnePage(imgs: seq<RawImage>)
    ensures Extraction.Extract([imgs]) == Extraction.PageImages(0, imgs)
  {
    ExtractStep([imgs], 0);
    assert [imgs][..1] == [imgs] && [imgs][..0] == [];
  }

  /** The same document with extraction and conversion on and four coupons
      per page: one image file, then a one-page PDF holding that one image,
      and no failure. */
  lemma SmallThenRepeatOutputs(cfg: Config, codec: Codec, path: string, small: Bytes, big: Bytes,
                               first: RawImage, second: RawImage, third: RawImage)
    requires |small| == 512 && |big| == 25600
    requires first.bytes == small && second.bytes == big && third.bytes == big && second.height > 0
    requires cfg.extractImages && cfg.convertPdf && cfg.couponsPerPage == 4
    ensures var r := ProcessDocument(cfg, codec, SourceFile(path, Some([[first, second, third]])));
            var kept := AcceptedOf([[first, second, third]], codec);
            && r.failure.None?
            && |r.effects| == 2
            && r.effects[0] == WriteImage(ImageName(path, kept[0]), kept[0].stored)
            && r.effects[1].WritePdf?
            && r.effects[1].name == Naming.PdfFileName(Naming.Basename(path))
            && |r.effects[1].layout| == 1 && |r.effects[1].layout[0]| == 1
  {
    SmallThenRepeatKeepsOne(codec, small, big, first, second, third);
    SingleAcceptedOutputs(cfg, path, AcceptedOf([[first, second, third]], codec));
  }

  /** One accepted image of non-zero height, with extraction and conversion
      on: its image file, then the document's one-page PDF showing it. */
  lemma SingleAcceptedOutputs(cfg: Config, path: string, kept: seq<Filter.Accepted>)
    requires |kept| == 1 && kept[0].source.height > 0
    requires cfg.extractImages && cfg.convertPdf
    ensures var r := ProcessAccepted(cfg, path, kept);
            && r.failure.None?
            && |r.effects| == 2
            && r.effects[0] == WriteImage(ImageName(path, kept[0]), kept[0].stored)
            && r.effects[1].WritePdf?
            && r.effects[1].name == Naming.PdfFileName(Naming.Basename(path))
            && |r.effects[1].layout| == 1 && |r.effects[1].layout[0]| == 1
  {
    var r := ProcessAccepted(cfg, path, kept);
    SinglePdf(cfg.convertPdf, kept, cfg.couponsPerPage);
    ProcessAcceptedWrites(cfg, path, kept);
    assert Coupons(kept)[0].height > 0;
    assert r.pdfWritten;
    assert r.effects[1] in r.effects;
    OneCouponOnePage(Coupons(kept), cfg.couponsPerPage);
  }

  /** A wanted PDF of one accepted image of non-zero height is one page
      holding that image. */
  lemma SinglePdf(wanted: bool, kept: seq<Filter.Accepted>, couponsPerPage: int)
    requires wanted && |kept| == 1 && kept[0].source.height > 0
    ensures var o := ComposeIf(wanted, Coupons(kept), couponsPerPage);
            o.Pdf? && |o.layout| == 1 && |o.layout[0]| == 1
  {
    var coupons := Coupons(kept);
    OneCouponOnePage(coupons, couponsPerPage);
    ComposeIfLayout(wanted, coupons, couponsPerPage);
  }

  /** A single coupon of non-zero height fills one page on its own. */
  lemma OneCouponOnePage(coupons: seq<Coupon>, couponsPerPage: int)
    requires |coupons| == 1 && coupons[0].height > 0
    ensures var o := Layout.Compose(coupons, couponsPerPage);
            o.Some? && |o.value| == 1 && |o.value[0]| == 1
  {
    assert !exists c :: c in coupons && c.height == 0;
    var layout := Layout.Compose(coupons, couponsPerPage).value;
    Layout.ComposePageCount(coupons, couponsPerPage);
    Layout.ComposeKeepsOrder(coupons, couponsPerPage);
    assert |Layout.Flatten(layout)| == 1;
    assert Layout.Flatten(layout) == layout[0] + Layout.Flatten(layout[1..]);
  }

  /** Two documents of two coupons each, merged at three per page: the
      merged PDF has a page of three and a page of one, holding the first
      document's images and then the second's. */
  lemma MergeTwoDocuments(cfg: Config, codec: Codec, a: SourceFile, b: SourceFile)
    requires cfg.mergePdf && cfg.couponsPerPage == 3
    requires a.pages.Some? && b.pages.Some?
    requires |DocumentCoupons(codec, a)| == 2 && |DocumentCoupons(codec, b)| == 2
    requires forall c :: c in DocumentCoupons(codec, a) + DocumentCoupons(codec, b) ==> c.height > 0
    ensures var r := Run(cfg, codec, [a, b]);
            && r.failure.None?
            && exists e :: e in r.effects && e.WriteMergedPdf?
                 && |e.layout| == 2 && |e.layout[0]| == 3 && |e.layout[1]| == 1
                 && Layout.PlacementData(Layout.Flatten(e.layout))
                    == Layout.CouponData(DocumentCoupons(codec, a) + DocumentCoupons(codec, b))
  {
    var files := [a, b];
    var merged := DocumentCoupons(codec, a) + DocumentCoupons(codec, b);
    TwoDocumentLoop(cfg, codec, a, b);
    var st := RunLoop(cfg, codec, files);
    LoopMerges(cfg, codec, files);
    assert st.merged == merged;
    var r := Finish(cfg, 2, st);
    assert r.failure.None? by {
      assert !exists c :: c in merged && c.height == 0;
    }
    FinishMerge(cfg, 2, st);
    FinishMergeLayout(cfg, 2, st);
    var e :| e in r.effects && e.WriteMergedPdf?;
    FourCouponsAtThree(merged, e.layout);
  }

  lemma FourCouponsAtThree(merged: seq<Coupon>, layout: seq<seq<Layout.Placement>>)
    requires |merged| == 4 && Layout.Compose(merged, 3) == Some(layout)
    ensures |layout| == 2 && |layout[0]| == 3 && |layout[1]| == 1
    ensures Layout.PlacementData(Layout.Flatten(layout)) == Layout.CouponData(merged)
  {
    Layout.ComposePageCount(merged, 3);
    Layout.ComposeKeepsOrder(merged, 3);
    assert |layout| == 2;
    assert Layout.Flatten(layout) == layout[0] + (layout[1] + Layout.Flatten([]));
  }

  /** Two documents whose accepted images all have a height pass the loop,
      and the merge list is the first's images followed by the second's. */
  lemma TwoDocumentLoop(cfg: Config, codec: Codec, a: SourceFile, b: SourceFile)
    requires a.pages.Some? && b.pages.Some?
    requires forall c :: c in DocumentCoupons(codec, a) + DocumentCoupons(codec, b) ==> c.height > 0
    ensures RunLoop(cfg, codec, [a, b]).failure.None?
    ensures AllCoupons(codec, [a, b]) == DocumentCoupons(codec, a) + DocumentCoupons(codec, b)
  {
    var ca, cb := DocumentCoupons(codec, a), DocumentCoupons(codec, b);
    assert !DocumentFails(cfg, codec, a) by {
      assert forall c :: c in ca ==> c in ca + cb;
    }
    assert !DocumentFails(cfg, codec, b) by {
      assert forall c :: c in cb ==> c in ca + cb;
    }
    LoopFailure(cfg, codec, [a, b]);
    TwoDocumentCoupons(codec, a, b);
  }

  lemma TwoDocumentCoupons(codec: Codec, a: SourceFile, b: SourceFile)
    ensures AllCoupons(codec, [a, b]) == DocumentCoupons(codec, a) + DocumentCoupons(codec, b)
  {
    var ca, cb := DocumentCoupons(codec, a), DocumentCoupons(codec, b);
    var f := file => DocumentCoupons(codec, file);
    assert Map(f, [a, b]) == [ca, cb];
    assert Layout.Flatten([ca, cb]) == ca + Layout.Flatten([cb]);
    assert Layout.Flatten([cb]) == cb + Layout.Flatten([]);
  }
}

=== FILE: types.dfy ===
/**
 Records shared by the coupon extractor's stages: raw payload bytes, the image
 records produced by extraction, and the `(bytes, width, height, ext)` tuples
 handed to the PDF composer.
 */
module Types {

  /** One byte of an image payload. */
  newtype byte = x: int | 0 <= x < 256

  type Bytes = seq<byte>

  datatype Option<+T> = None | Some(value: T)

  /** What the document library reports for one embedded image: the stored
      (still compressed) bytes, pixel dimensions and a format tag such as "png". */
  datatype RawImage = RawImage(bytes: Bytes, width: nat, height: nat, ext: string)

  /** A raw image together with its position in the document: the 0-based page
      number and the 0-based position in that page's full image list. */
  datatype SourceImage = SourceImage(bytes: Bytes, width: nat, height: nat, ext: string, page: nat, index: nat)

  /** The tuple kept for layout: the stored (possibly re-encoded) payload, the
      pixel dimensions and the format tag. */
  datatype Coupon = Coupon(data: Bytes, width: nat, height: nat, ext: string)

  /** `f` applied to every element, in order. */
  function Map<A, B>(f: A -> B, xs: seq<A>): (r: seq<B>)
    ensures |r| == |xs|
    ensures forall i :: 0 <= i < |xs| ==> r[i] == f(xs[i])
  {
    seq(|xs|, i requires 0 <= i < |xs| => f(xs[i]))
  }

  lemma MapSnoc<A, B>(f: A -> B, xs: seq<A>)
    requires |xs| > 0
    ensures Map(f, xs) == Map(f, xs[..|xs| - 1]) + [f(xs[|xs| - 1])]
  {
  }
}
